=== FILE: README.md ===
# node-fallocate, modelled in Dafny

node-fallocate preallocates disk space for a file. It binds `fallocate(2)`
or `posix_fallocate(3)` through a foreign-function interface, trying a fixed
chain of (library, implementation) pairs and keeping the first that can be
constructed. It exposes four synchronous functions, `fallocateSync`,
`ffallocateSync`, `posix_fallocateSync` and `fposix_fallocateSync`. It also
exposes two asynchronous ones, `fallocate` and `posix_fallocate`, which hand
the work to a forked worker process and correlate replies by job id.
Failures the library detects are reported as `FallocateError`. For a system
error number the code and message come from libuv when it can be bound, or
from a generic fallback otherwise; a local failure's code is always EGENERIC.
The synchronous functions pass errors from `fs.openSync` on unchanged, and
an error from the send to the worker reaches the callback unchanged. Through
the worker, an open error reaches the callback rebuilt as a `FallocateError`
from its message and errno.

The model has six modules, one per concern of the program:

- `Js` (js.dfy): the JavaScript values the functions receive. Numbers are an
  integer, a non-integer between two integers, NaN or an infinity. The file
  also holds the operators the argument checks rely on: ToNumber, ToBoolean,
  ToInt32, the bitwise OR, `===` and `<`, each cited by its section of ECMAScript
  5.1. It also holds the decimal rendering used in error messages.
- `Util` (util.dfy): util.js's `pick_one`, the first-that-constructs fold over a
  candidate chain. A host is the set of native symbols its libraries export.
  The module also has the `off_guess_t` width choice.
- `Errors` (errors.dfy): errors.js's error resolution (the -1 sentinel, the libuv backend
  and the fallback), the `FallocateError` constructor and the shape of a
  locally raised error.
- `Fallocate` (fallocate.dfy): fallocate.js's argument checks, the direct and POSIX
  `_fallocate`, the POSIX-over-direct composite, and the façade that opens
  and closes a handle. Also the four chains that bind the exported functions.
- `Channel` (channel.dfy): fallocate.js's parent side of the worker channel. It is a
  state machine over the job counter, the in-flight table and the worker,
  driven by events: a schedule with its send outcome, a reply, and the
  worker's exit or error.
- `Subprocess` (subprocess.dfy): subprocess.js's `process_message`, the JSON encoding of a
  request on the channel, and end-to-end lemmas from a scheduled job to the
  callback invocation.

Native entry points, `ffi.errno()`, the libuv calls and `fs.openSync` are
oracle fields of `Sys` and `ErrorHost`. An operation's trace records the
native calls made, the handles opened and closed, and how the call ended.

## Model

| member | source | states |
|---|---|---|
| Js.ToNumber | fallocate.js:37-40 | a number converts to itself; undefined, null, booleans and functions convert to NaN, 0 or 1; apart from functions, a value converts to something other than NaN and 0 exactly when it is truthy |
| Js.Truthy | fallocate.js:33-43 | the falsy values are exactly undefined, null, false, 0 and NaN |
| Js.LessThan | fallocate.js:37-40 | NaN and +Infinity are below nothing and -Infinity is below everything; an integer is below k exactly when it is smaller; a fraction between f and f+1 is below k exactly when f+1 <= k |
| Js.Wrap32 | fallocate.js:37 | the ToInt32 reduction lands in the signed 32-bit range and differs from its input by a multiple of 2^32 |
| Js.ToInt32 | fallocate.js:37 | the bitwise OR with 0 always yields a signed 32-bit integer, whatever the operand |
| Js.BitOrZero | fallocate.js:37-45 | the right-hand side of each integrality test is a signed 32-bit integer |
| Js.Wrap32Fixes | fallocate.js:37 | the reduction leaves an integer unchanged exactly when it is already in the signed 32-bit range |
| Js.SurvivesBitOrIff | fallocate.js:37-45 | the test that a value is strictly equal to its bitwise OR with 0 holds exactly for the numbers that are integers in [-2^31, 2^31-1]; fractions, NaN, the infinities, larger integers and non-numbers all fail it |
| Js.DigitChar | errors.js:57 | a digit below ten renders as a character from '0' to '9' |
| Js.NatToDecimal | errors.js:57 | the rendering of a natural number is non-empty, consists of decimal digits and has no leading zero |
| Js.IntToDecimal | errors.js:57 | the rendering of `${err}` is never empty |
| Js.NatToDecimalRoundTrip | errors.js:57 | reading the digits back gives the number rendered |
| Js.IntToDecimalRoundTrip | errors.js:57 | the errno shown in a message parses back to exactly the error number, sign included |
| Util.PickOne | util.js:3-16 | a result is the first candidate whose constructor and method lookup both succeed, published under `name` or else the class name; null exactly when no candidate works; never null when the last class cannot fail to construct and has the method |
| Util.PickOneFallback | util.js:3-16 | with a candidate k that works, preceded only by other classes that have the method, the winner is candidate k exactly when nothing before it constructs, and otherwise one that constructs |
| Util.AttemptedIsPrefix | util.js:4-13 | the constructors that run are exactly those up to and including the winner; with no winner, all of them |
| Util.PickOneIgnoresLater | util.js:4-9 | replacing everything after the winner leaves the choice unchanged |
| Util.OffGuessBits | util.js:23-24 | the unsuffixed entry points take 64-bit offsets exactly when a pointer is wider than 4 bytes, and 32-bit ones otherwise |
| Fallocate.CallsNeverTruncate | util.js:24 | every argument a native call can receive fits the offset type on every host, whichever width `off_guess_t` takes, so no offset or length is truncated |
| Errors.ResolverPick | errors.js:25-51 | `resolve_error` is never null: libuv is used exactly when one of the three candidate libraries exports all of its symbols, and the static resolver otherwise |
| Errors.ResolveGeneric | errors.js:19-22 | a falsy or unknown number gives {ERROR, ""}; a known one gives the table's code and description, each defaulted when absent |
| Errors.ResolveBackend | errors.js:37-43 | `_resolve` answers with libuv's translation, name and message on the libuv resolver; on the base resolver, which has no such method, it throws; only the libuv resolver ever answers |
| Errors.Resolve | errors.js:8-18 | -1 gives {EGENERIC, ""} without consulting a backend; the base resolver maps every other number to {ERROR, ""}; the libuv one yields libuv's answer, or {ERROR, ""} when libuv throws |
| Errors.FallbackIgnoresTable | errors.js:12-21 | when the backend throws, even a number the errno table knows resolves to ERROR, which differs from the table's own answer |
| Errors.ResolveError | errors.js:46-51 | the resolution the error class sees: the sentinel rule, the base rule and the libuv rule, decided by the host's libraries |
| Errors.NewFallocateError | errors.js:54-61 | errno is the given number and code is the resolved code; the message is the description, or the caller's text when the description is empty, followed by " (<err>, <code>)" |
| Errors.LocalErrorShape | errors.js:54-61 | for -1 the error is `LocalError` of the caller's text: (-1, EGENERIC) with that text and the EGENERIC suffix, whatever resolver the host provides |
| Errors.LocalSuffixText | errors.js:57 | the suffix of a local failure reads " (-1, EGENERIC)" |
| Fallocate.Validate | fallocate.js:32-46 | the checks run in order: not implemented, offset, length, mode; the first failing one decides; success exactly when the offset is an integer in [0, 2^31-1], the length one in [1, 2^31-1] and the mode is falsy or an int32; a falsy mode becomes 0 |
| Fallocate.DirectPick | fallocate.js:134-142 | the direct chain is never null; it falls back to the unimplemented base exactly when none of its six native candidates constructs |
| Fallocate.PosixPick | fallocate.js:144-153 | the POSIX chain is never null and never binds its unimplemented base; it binds the composite exactly when none of its six native candidates constructs |
| Fallocate.FallocateSync | fallocate.js:134-142 | `fallocateSync` binds a direct strategy under its own name |
| Fallocate.FfallocateSync | fallocate.js:155-163 | `ffallocateSync` binds a direct strategy under its own name |
| Fallocate.PosixFallocateSync | fallocate.js:144-153 | `posix_fallocateSync` binds an implemented POSIX strategy under its own name |
| Fallocate.FposixFallocateSync | fallocate.js:165-174 | `fposix_fallocateSync` binds an implemented POSIX strategy under its own name |
| Fallocate.Facade | fallocate.js:22-30 | every handle opened is closed; a failing open throws the open error and makes no other call; a failed check after the open throws the local error with exactly one handle opened and closed; every native call stays in range |
| Fallocate.FacadeOpened | fallocate.js:22-30 | with the target open, the façade is `ffallocate` on the new descriptor plus exactly one open and one close |
| Fallocate.Ffallocate | fallocate.js:32-47 | a failed check throws its local error before any native call; a strategy without `fn` always throws "Not implemented"; no handle stays open |
| Fallocate.FfallocateDispatches | fallocate.js:36-46 | once the checks pass, `ffallocate` is the class's own call on the offset, the length and the mode with a falsy mode replaced by 0: the direct call, the POSIX call, or the composite's `fallocateSync` with mode 0 |
| Fallocate.DirectNative | fallocate.js:32-55 | a native direct strategy with accepted arguments makes exactly one call (fd, mode, offset, length) and succeeds exactly when it returns 0, else throws with `ffi.errno()` or the return value |
| Fallocate.DirectNativeOpened | fallocate.js:22-55 | the same on an opened path: one call on the new descriptor inside one open and close |
| Fallocate.DirectOnOpened | fallocate.js:22-55 | on an opened target a native direct strategy's trace is the direct call on the new descriptor with one open and one close |
| Fallocate.BaseOpened | fallocate.js:22-34 | the unimplemented base on an opened target throws "Not implemented" after one open and one close, whatever the arguments |
| Fallocate.PosixNativeOpened | fallocate.js:84-95 | a native POSIX strategy on an opened path refuses a non-zero mode after the open and otherwise makes one call (fd, offset, length), succeeding exactly when it returns 0 |
| Fallocate.CompositeOpened | fallocate.js:124-131 | the composite on an opened path is the direct `fallocateSync` with mode 0 on the new descriptor, inside one more open and close |
| Fallocate.InvalidOffsetRejected | fallocate.js:37-39 | a refused offset throws the local "Invalid offset" error |
| Fallocate.InvalidLengthRejected | fallocate.js:40-42 | after an accepted offset, a refused length throws the local "Invalid length" error |
| Fallocate.DirectCall | fallocate.js:49-55 | the native function is called once as (fd, mode, offset, length); success exactly when it returns 0; otherwise the errno is `ffi.errno()` when non-zero, else the return value |
| Fallocate.PosixCall | fallocate.js:85-95 | a non-zero mode throws the local POSIX mode error without a native call; otherwise one call (fd, offset, length), success exactly when it returns 0, and a non-zero return is itself the errno |
| Fallocate.Dispatch | fallocate.js:49-131 | the bound class's `_fallocate`: direct and POSIX classes behave as above, the composite delegates; handles balance and calls stay in range |
| Fallocate.FallocateSyncCall | fallocate.js:22-55 | the export `fallocateSync`: a failed open throws the open error; the unimplemented base throws "Not implemented" after one open; with a native entry point and accepted arguments, exactly one call (fd, mode, offset, length) on the opened descriptor, success exactly when it returns 0, and the errno rule of the direct call |
| Fallocate.PosixFallocateSyncCall | fallocate.js:84-131 | the export `posix_fallocateSync`: a native entry point refuses a non-zero mode after one open and otherwise makes one call (fd, offset, length) whose non-zero result is the errno; the composite is the direct `fallocateSync` with mode 0 on the descriptor, plus one open and close |
| Fallocate.FfallocateSyncCall | fallocate.js:32-55 | the export `ffallocateSync`: no handle is opened; the base throws "Not implemented"; a native entry point with accepted arguments makes exactly one call (fd, mode, offset, length) whose result decides the outcome |
| Fallocate.FposixFallocateSyncCall | fallocate.js:84-131 | the export `fposix_fallocateSync`: a native entry point refuses a non-zero mode before any call and otherwise makes one call (fd, offset, length); the composite is the direct `fallocateSync` with mode 0 on the descriptor |
| Fallocate.RejectedBeforeNative | fallocate.js:32-45 | for every strategy and host, a failed check makes no native call, opens nothing, and throws (-1, EGENERIC) with the check's message |
| Fallocate.TestSuiteInvalidOffsets | test/fallocate.js:76-95 | offsets -1, NaN and 1.09 throw "Invalid offset" with errno -1 and code EGENERIC |
| Fallocate.TestSuiteInvalidLengths | test/fallocate.js:97-122 | the lengths the tests try (-1, NaN, 1.09, Infinity), and 0, throw "Invalid length" with errno -1 and code EGENERIC |
| Fallocate.PosixRejectsNonZeroMode | fallocate.js:85-89 | a native POSIX strategy refuses every accepted non-zero mode before the native call |
| Fallocate.CompositeIgnoresMode | fallocate.js:124-131 | the composite gives the same trace for every accepted mode: that of the direct `fallocateSync` on the descriptor with mode 0 |
| Fallocate.NoPosixBindsComposite | fallocate.js:144-174 | on a host that exports no POSIX symbol, both POSIX chains bind the composite |
| Fallocate.NoDirectBindsBase | fallocate.js:134-163 | on a host that exports no direct symbol, both direct chains bind the unimplemented base |
| Fallocate.ProcessFallocate64Binds | fallocate.js:134-136 | when the running process exports `fallocate64`, the first candidate of the direct chain wins |
| Fallocate.CompositeOverDirect | fallocate.js:124-131 | the composite over the process's `fallocate64`, on an opened path and when the open oracle opens the descriptor as a path, turns mode 1 into one `fallocate64` call with mode 0 on the reopened descriptor, opening and closing two handles |
| Fallocate.CompositeAcceptsModeOne | fallocate.js:124-131 | on a host whose process exports `fallocate64` but no POSIX symbol, `posix_fallocateSync` with mode 1, when the path opens and the open oracle opens the descriptor as a path, calls `fallocate64` with mode 0 on the reopened descriptor, opening and closing two handles, and succeeds exactly when that call returns 0 |
| Fallocate.NoNativeNotImplemented | fallocate.js:124-153 | on a host that exports no allocation symbol, `posix_fallocateSync` still binds the composite, which reaches the direct base and throws "Not implemented" after opening and closing two handles |
| Fallocate.UnimplementedFacade | fallocate.js:22-34 | the unimplemented direct base, on a target that opens, throws "Not implemented" with one handle opened and closed |
| Channel.Shuffle | fallocate.js:224-227 | with no callback and a mode that is not a number, the mode slot becomes the callback and the mode becomes 0; otherwise both stay; the job gets a promise exactly when the callback is falsy and the mode is a number or falsy |
| Channel.EnsureWorker | fallocate.js:180-184 | a worker exists afterwards; a new one is forked only when there was none |
| Channel.Throws | fallocate.js:229-236 | a promise's settle function never throws; a supplied callback throws whatever the caller's callback throws |
| Channel.Schedule | fallocate.js:211-241 | the counter advances by one and the request carries the new id; a send error calls the callee with it, leaves the table unchanged and lets what that call throws escape; a successful send adds exactly that job to the table and calls nothing; a worker is forked only when none is live |
| Channel.Failing | fallocate.js:192-198 | a reply fails exactly when its errno, defaulted to 0, is truthy or its error is a non-empty string |
| Channel.OnMessage | fallocate.js:191-208 | an unknown id changes nothing and calls nothing; a known one is removed first and only its own callee is called; a failing reply calls it with a `FallocateError`, a second time with the exception exactly when that throws, and only the second call's exception escapes; otherwise it gets (null, path) once and what that throws escapes; a promise never lets anything escape |
| Channel.OnExit | fallocate.js:185-190 | exit and error forget the worker and keep the counter and the table |
| Channel.Apply | fallocate.js:180-241 | only a schedule sends, and only a schedule advances the counter |
| Channel.Run | fallocate.js:176-241 | every sequence of events keeps the in-flight ids among those handed out and the worker among those forked |
| Channel.JobIdsConsecutive | fallocate.js:213 | the ids handed out continue the counter one by one; exits, errors and replies never reset or skip it |
| Channel.JobIdsFromOne | fallocate.js:177-213 | from the start the n-th scheduled job gets id n, so ids strictly increase across worker respawns |
| Channel.FailedSendNeverEnters | fallocate.js:214-219 | a job id already handed out but not in flight, as after a failed send, never enters the table, whatever events follow |
| Channel.FailedSendStaysOut | fallocate.js:214-219 | a job whose send failed calls its callee with the send error once and is never entered in the table by any later event |
| Channel.ReplyConsumesJob | fallocate.js:193-197 | a second reply with the same id invokes nothing and changes nothing |
| Channel.InflightKept | fallocate.js:191-221 | schedules, replies for other jobs, exits and errors, in any number and order, leave a job in flight with the same callee |
| Channel.ReplyReachesOwnCallee | fallocate.js:191-208 | whatever events come between, the reply for a job in flight calls that job's callee and no other, at least once |
| Subprocess.Serialize | fallocate.js:214 | the JSON encoding turns NaN and the infinities into null and a function into undefined, and keeps every finite number, undefined, null and the booleans |
| Subprocess.Transmit | fallocate.js:214 | the worker reads the same job, method and path; the values it reads carry no functions and are unchanged by a second encoding; an offset or a length is accepted after the encoding exactly when it was before |
| Subprocess.SerializeKeepsValidation | fallocate.js:214 | the encoding never changes the checks' verdict, unless the mode is a function or an infinity |
| Subprocess.InfiniteModeAcceptedAfterEncoding | fallocate.js:214 | an infinite mode fails the checks when called directly and passes them in the worker |
| Subprocess.RunExport | subprocess.js:8 | dispatching a method name on the module's exports never leaves a handle open, and every `FallocateError` it throws is well formed |
| Subprocess.ProcessMessage | subprocess.js:5-15 | one reply that echoes job and path; no error and no errno exactly when the call returned; otherwise the exception's message and its errno, -1 when it has none; an unknown name answers "is not a function" with -1 |
| Subprocess.SuccessReplyCompletes | subprocess.js:9 | a success reply is never taken for a failure by the parent |
| Subprocess.ScheduledJobCompletes | fallocate.js:191-221 | a scheduled, sent and answered job goes back to its own callee, the table returns to what it was, and the callee gets (null, path) exactly when the worker's call returned, otherwise a `FallocateError` rebuilt from the worker's errno, -1 when the exception has none, and its message |
| Subprocess.WorkerInvalidOffset | subprocess.js:5-13 | in the worker, `fallocateSync` with an invalid offset throws the local error after opening and closing one handle |
| Subprocess.InvalidOffsetReply | subprocess.js:11-13 | the worker answers an invalid offset with the local message and errno -1 |
| Subprocess.ScheduledInvalidOffset | fallocate.js:198-200 | an invalid offset through the worker reaches the callee as (-1, EGENERIC), and its message carries the suffix twice |
| Subprocess.FailedReplyDelivered | fallocate.js:197-200 | a failing reply for a job in flight, to a callee that does not throw, is delivered as one `FallocateError` |

## Left out

- Native calls through `ffi.Library` are not modelled; the entry points, `ffi.errno()` and libuv's `uv_translate_sys_error`, `uv_err_name` and `uv_strerror` are oracle fields, because they are foreign code. A libuv call that throws is the oracle returning None. A libuv string that comes back null is not distinguished from an empty one.
- The contents of the `errno` package's table are an abstract map from numbers to optional code and description.
- `fs.openSync` is an oracle from target to descriptor or error. `fs.closeSync` is counted and assumed not to throw. File sizes are not modelled.
- The composite passes a descriptor where `fallocateSync` expects a path (fallocate.js:128). What opening that descriptor as a path does is decided by the open oracle on an `Fd` target.
- `child_process.fork`, the IPC transport and promises are left out, because they are process and event-loop plumbing. A promise is a callee that never throws. The send callback's outcome is an input of the schedule event.
- The race between the send callback entering a job in the table (fallocate.js:219) and an early reply is left out. The model handles the send outcome before any reply, because the interleaving belongs to the event loop.
- In the worker, the asynchronous exports `fallocate` and `posix_fallocate` are modelled as returning without throwing. The nested job they would schedule is not followed. Calling `FallocateError` without `new` throws a TypeError.
- Method names inherited from `Object.prototype` are treated as missing exports.
- String and object arguments are not modelled: `Value` has no strings and no objects other than functions. In the code a string offset or length is always refused, because `"0" !== 0`; an empty-string mode is falsy and becomes 0; any other string mode is refused.
- An exception that escapes a worker-channel handler is reported in `Step.escaped` and not followed further. What Node does with an uncaught exception is process plumbing.
- Subprocess.ScheduledJobCompletes: says nothing about a worker exception other than a `FallocateError` whose message is empty, since whether the parent then sees a failure depends on its errno.
- The pointer size is a parameter of `OffGuessBits`, not probed.
- The native return value is compared with 0 as an integer. `rv != 0` on a non-number is not modelled.
- The tests' file-size checks and the mocha test runner are left out; only the tests' argument-rejection cases are stated, as lemmas.
- Floating-point numbers are not modelled beyond the integer/fraction/NaN/infinity split. -0 is folded into 0, which `===` treats as equal.

Where the code and its tests disagree, the model follows the code. The test at test/fallocate.js:125-132 expects `posix_fallocateSync` to reject mode 1. On a host where no POSIX entry point binds, the composite is chosen, and it discards the mode (`CompositeAcceptsModeOne`).

Consequences of the code that a reader may not expect:

- The mode is accepted when it is falsy or a signed 32-bit integer, not any integer: the integrality test refuses larger integers.
- Offsets and lengths are capped at 2^31-1 by the same test, although the native signatures take 64-bit values.
- An error from the worker is rebuilt in the parent from the worker's message, which already ends in the suffix. The callee therefore sees " (<err>, <code>)" twice (`ScheduledInvalidOffset`).

=== FILE: channel.dfy ===
/** The parent side of the worker channel: job numbering, the in-flight table
    from job id to completion callback, the lazily spawned worker, and what
    each event (a scheduled job and the outcome of sending it, a reply, the
    worker's exit or error) delivers to callbacks. */
module Channel {
  import opened Js
  import opened Errors

  /** Who a completion goes to: the value passed as callback, or the settle
      function of the promise created for job `job`. */
  datatype Callee = Supplied(cb: Value) | PromiseOf(job: nat)

  /** The arguments of one callback invocation: the send error, a
      `FallocateError`, the exception the first invocation threw, or
      `(null, path)`. */
  datatype CbArg = SendFailed(err: nat) | Failed(e: FallocateError) | Rethrown(ex: nat) | Completed(path: string)

  datatype Invocation = Invocation(callee: Callee, arg: CbArg)

  /** The message sent to the worker. */
  datatype Request = Request(job: nat, methodName: string, path: string, offset: Value, length: Value, mode: Value)

  /** The message the worker sends back; absent fields are None. */
  datatype Reply = Reply(job: nat, path: string, error: Option<string>, errno: Option<int>)

  /** `_jobs`, `_inflight`, `_worker` (the generation of the live worker) and
      the number of workers forked so far. */
  datatype State = State(jobs: nat, inflight: map<nat, Callee>, worker: Option<nat>, spawned: nat)

  const Initial := State(0, map[], None, 0)

  /** Every in-flight id was handed out already, and the live worker is one of those forked. */
  predicate Inv(st: State) {
    && (forall j :: j in st.inflight ==> 1 <= j <= st.jobs)
    && (st.worker.Some? ==> 1 <= st.worker.value <= st.spawned)
  }

  /** What a callback invocation throws: nothing, or the id of an exception. */
  type Reaction = Invocation -> Option<nat>

  /** The reaction of callbacks that never throw. */
  const Quiet: Reaction := (inv: Invocation) => None

  /** A promise's settle function never throws; a supplied callback throws
      what the reaction says. */
  function Throws(reacts: Reaction, inv: Invocation): (r: Option<nat>)
    ensures inv.callee.PromiseOf? ==> r.None?
    ensures inv.callee.Supplied? ==> r == reacts(inv)
  {
    if inv.callee.PromiseOf? then None else reacts(inv)
  }

  /** What an event did: the new state, the callbacks it invoked in order, the
      request it sent, the job whose promise `_schedule` returned, and the
      exception that escaped the event's handler uncaught, if any. */
  datatype Step = Step(state: State, calls: seq<Invocation>, sent: Option<Request>, promise: Option<nat>,
                       escaped: Option<nat>)

  /** The argument shuffle of `_schedule`: with no callback and a mode that is
      not a number, the mode slot holds the callback and the mode becomes 0. */
  function Shuffle(mode: Value, cb: Value): (r: (Value, Value))
    ensures IsNumber(mode) || Truthy(cb) ==> r == (mode, cb)
    ensures !IsNumber(mode) && !Truthy(cb) ==> r == (Num(Int(0)), mode)
    ensures !Truthy(r.1) <==> !Truthy(cb) && (IsNumber(mode) || !Truthy(mode))
    ensures r.0.Func? ==> Truthy(cb)
  {
    if !Truthy(cb) && !IsNumber(mode) then (Num(Int(0)), mode) else (mode, cb)
  }

  /** `ensureWorker()`: fork a new worker only when there is none. */
  function EnsureWorker(st: State): (r: State)
    requires Inv(st)
    ensures Inv(r) && r.worker.Some?
    ensures r.jobs == st.jobs && r.inflight == st.inflight
    ensures st.worker.Some? ==> r == st
    ensures st.worker.None? ==> r.spawned == st.spawned + 1 && r.worker == Some(r.spawned)
  {
    if st.worker.Some? then st else st.(worker := Some(st.spawned + 1), spawned := st.spawned + 1)
  }

  /** `_schedule(methodName, path, offset, length, mode, cb)`, with the outcome of
      the send (None: sent; Some(e): the send callback got error e). */
  function Schedule(st: State, methodName: string, path: string, offset: Value, length: Value,
                    mode: Value, cb: Value, sendError: Option<nat>, reacts: Reaction): (r: Step)
    requires Inv(st)
    ensures Inv(r.state) && r.state.worker.Some?
    ensures r.state.jobs == st.jobs + 1
    ensures st.worker.Some? ==> r.state.worker == st.worker && r.state.spawned == st.spawned
    ensures st.worker.None? ==> r.state.spawned == st.spawned + 1 && r.state.worker == Some(r.state.spawned)
    ensures r.sent.Some? && r.sent.value.job == r.state.jobs && r.sent.value.job !in st.inflight
    ensures r.sent.value.methodName == methodName && r.sent.value.path == path
    ensures r.sent.value.offset == offset && r.sent.value.length == length
    ensures r.sent.value.mode == Shuffle(mode, cb).0
    ensures r.promise.Some? <==> !Truthy(Shuffle(mode, cb).1)
    ensures r.promise.Some? ==> r.promise.value == r.sent.value.job
    ensures var callee := if r.promise.Some? then PromiseOf(r.sent.value.job) else Supplied(Shuffle(mode, cb).1);
      && (sendError.Some? ==> r.state.inflight == st.inflight
                              && r.calls == [Invocation(callee, SendFailed(sendError.value))]
                              && r.escaped == Throws(reacts, r.calls[0]))
      && (sendError.None? ==> r.state.inflight == st.inflight[r.sent.value.job := callee]
                              && r.calls == [] && r.escaped.None?)
  {
    var (mode', cb') := Shuffle(mode, cb);
    var w := EnsureWorker(st);
    var job := w.jobs + 1;
    var callee := if Truthy(cb') then Supplied(cb') else PromiseOf(job);
    var promise := if Truthy(cb') then None else Some(job);
    var req := Request(job, methodName, path, offset, length, mode');
    match sendError
    case Some(err) =>
      // `cb(err)` runs in the send callback, outside any `try`.
      var call := Invocation(callee, SendFailed(err));
      Step(w.(jobs := job), [call], Some(req), promise, Throws(reacts, call))
    case None => Step(w.(jobs := job, inflight := w.inflight[job := callee]), [], Some(req), promise, None)
  }

  /** `errno || error` on the reply's fields with their defaults (0 and null):
      a truthy errno, or a message that is not the empty string. */
  function Failing(msg: Reply): (b: bool)
    ensures b <==> Truthy(Num(Int(msg.errno.GetOr(0)))) || (msg.error.Some? && |msg.error.value| > 0)
    ensures !b ==> (msg.errno.None? || msg.errno.value == 0) && (msg.error.None? || msg.error.value == "")
  {
    msg.errno.GetOr(0) != 0 || (msg.error.Some? && msg.error.value != "")
  }

  /** The worker's "message" handler. The first call of a failing reply runs
      inside a `try`, and what it throws is passed to the callee once more;
      what that second call throws, and what `cb(null, path)` throws, escapes
      the handler. */
  function OnMessage(st: State, host: ErrorHost, msg: Reply, reacts: Reaction): (r: Step)
    requires Inv(st)
    ensures Inv(r.state) && r.sent.None? && r.promise.None?
    ensures msg.job !in st.inflight ==> r == Step(st, [], None, None, None)
    ensures msg.job in st.inflight ==>
      && r.state == st.(inflight := st.inflight - {msg.job})
      && 1 <= |r.calls| <= 2
      && (forall k :: 0 <= k < |r.calls| ==> r.calls[k].callee == st.inflight[msg.job])
      && (r.escaped.Some? ==> st.inflight[msg.job].Supplied?)
    ensures msg.job in st.inflight && Failing(msg) ==>
      && r.calls[0].arg == Failed(NewFallocateError(host, msg.errno.GetOr(0), msg.error))
      && (|r.calls| == 2 <==> Throws(reacts, r.calls[0]).Some?)
      && (|r.calls| == 1 ==> r.escaped.None?)
      && (|r.calls| == 2 ==> r.calls[1].arg == Rethrown(Throws(reacts, r.calls[0]).value)
                             && r.escaped == Throws(reacts, r.calls[1]))
    ensures msg.job in st.inflight && !Failing(msg) ==>
      && r.calls == [Invocation(st.inflight[msg.job], Completed(msg.path))]
      && r.escaped == Throws(reacts, r.calls[0])
  {
    if msg.job !in st.inflight then Step(st, [], None, None, None)
    else
      var cb := st.inflight[msg.job];
      var st' := st.(inflight := st.inflight - {msg.job});
      if Failing(msg) then
        var first := Invocation(cb, Failed(NewFallocateError(host, msg.errno.GetOr(0), msg.error)));
        match Throws(reacts, first)
        case Some(ex) =>
          var second := Invocation(cb, Rethrown(ex));
          Step(st', [first, second], None, None, Throws(reacts, second))
        case None => Step(st', [first], None, None, None)
      else
        var done := Invocation(cb, Completed(msg.path));
        Step(st', [done], None, None, Throws(reacts, done))
  }

  /** The worker's "exit" and "error" handlers: forget the worker, keep the table. */
  function OnExit(st: State): (r: State)
    requires Inv(st)
    ensures Inv(r) && r.worker.None?
    ensures r.jobs == st.jobs && r.inflight == st.inflight && r.spawned == st.spawned
  {
    st.(worker := None)
  }

  datatype Event =
    | ScheduleJob(methodName: string, path: string, offset: Value, length: Value, mode: Value, cb: Value,
                  sendError: Option<nat>)
    | Message(msg: Reply)
    | WorkerExit
    | WorkerError

  function Apply(st: State, host: ErrorHost, reacts: Reaction, ev: Event): (r: Step)
    requires Inv(st)
    ensures Inv(r.state)
    ensures r.sent.Some? <==> ev.ScheduleJob?
    ensures ev.ScheduleJob? ==> r.state.jobs == st.jobs + 1 && r.sent.value.job == st.jobs + 1
    ensures !ev.ScheduleJob? ==> r.state.jobs == st.jobs
  {
    match ev
    case ScheduleJob(methodName, path, offset, length, mode, cb, sendError) =>
      Schedule(st, methodName, path, offset, length, mode, cb, sendError, reacts)
    case Message(msg) => OnMessage(st, host, msg, reacts)
    case WorkerExit => Step(OnExit(st), [], None, None, None)
    case WorkerError => Step(OnExit(st), [], None, None, None)
  }

  /** The state after a sequence of events, and the job ids handed out, in order. */
  function Run(st: State, host: ErrorHost, reacts: Reaction, evs: seq<Event>): (r: (State, seq<nat>))
    requires Inv(st)
    ensures Inv(r.0)
    decreases |evs|
  {
    if |evs| == 0 then (st, [])
    else
      var s := Apply(st, host, reacts, evs[0]);
      var rest := Run(s.state, host, reacts, evs[1..]);
      (rest.0, (if s.sent.Some? then [s.sent.value.job] else []) + rest.1)
  }

  /** Job ids are consecutive from the counter's value and never reused:
      worker exits, errors and replies do not reset or skip the counter. */
  lemma {:induction false} JobIdsConsecutive(st: State, host: ErrorHost, reacts: Reaction, evs: seq<Event>)
    requires Inv(st)
    ensures var r := Run(st, host, reacts, evs);
      && r.0.jobs == st.jobs + |r.1|
      && (forall k :: 0 <= k < |r.1| ==> r.1[k] == st.jobs + 1 + k)
    decreases |evs|
  {
    if |evs| > 0 {
      var s := Apply(st, host, reacts, evs[0]);
      JobIdsConsecutive(s.state, host, reacts, evs[1..]);
    }
  }

  /** From the initial state, the n-th scheduled job gets id n, so ids strictly increase. */
  lemma JobIdsFromOne(host: ErrorHost, reacts: Reaction, evs: seq<Event>)
    ensures Inv(Initial)
    ensures var ids := Run(Initial, host, reacts, evs).1;
      && (forall k :: 0 <= k < |ids| ==> ids[k] == k + 1)
      && (forall k, m :: 0 <= k < m < |ids| ==> ids[k] < ids[m])
  {
    JobIdsConsecutive(Initial, host, reacts, evs);
  }

  /** A job is completed at most once: once its reply is handled, a repeated
      reply with the same id invokes nothing and changes nothing. */
  lemma ReplyConsumesJob(st: State, host: ErrorHost, msg: Reply, r1: Reaction, r2: Reaction)
    requires Inv(st)
    ensures var s := OnMessage(st, host, msg, r1).state;
      OnMessage(s, host, msg, r2) == Step(s, [], None, None, None)
  {
  }

  /** An id handed out but not in flight, as a job whose send failed, is never
      entered in the table by later events: a schedule only enters the new,
      larger id, and nothing else adds entries. */
  lemma {:induction false} FailedSendNeverEnters(st: State, host: ErrorHost, reacts: Reaction, evs: seq<Event>, j: nat)
    requires Inv(st) && j !in st.inflight && j <= st.jobs
    ensures j !in Run(st, host, reacts, evs).0.inflight
    decreases |evs|
  {
    if |evs| > 0 {
      var s := Apply(st, host, reacts, evs[0]);
      assert j !in s.state.inflight && j <= s.state.jobs;
      FailedSendNeverEnters(s.state, host, reacts, evs[1..], j);
    }
  }

  /** A job whose send fails is completed once, with the send error, and never
      reaches the table, whatever events follow. */
  lemma FailedSendStaysOut(st: State, host: ErrorHost, reacts: Reaction, methodName: string, path: string,
                           offset: Value, length: Value, mode: Value, cb: Value, err: nat, evs: seq<Event>)
    requires Inv(st)
    ensures var s := Schedule(st, methodName, path, offset, length, mode, cb, Some(err), reacts);
      && |s.calls| == 1 && s.calls[0].arg == SendFailed(err)
      && s.sent.value.job !in Run(s.state, host, reacts, evs).0.inflight
  {
    var s := Schedule(st, methodName, path, offset, length, mode, cb, Some(err), reacts);
    FailedSendNeverEnters(s.state, host, reacts, evs, s.sent.value.job);
  }

  /** No event but a reply for job `j` touches its entry: schedules, replies
      for other jobs, exits and errors, in any number and order, leave `j` in
      flight with the same callee. */
  lemma {:induction false} InflightKept(st: State, host: ErrorHost, reacts: Reaction, evs: seq<Event>, j: nat)
    requires Inv(st) && j in st.inflight
    requires forall k :: 0 <= k < |evs| ==> !(evs[k].Message? && evs[k].msg.job == j)
    ensures var r := Run(st, host, reacts, evs).0;
      j in r.inflight && r.inflight[j] == st.inflight[j]
    decreases |evs|
  {
    if |evs| > 0 {
      var s := Apply(st, host, reacts, evs[0]);
      assert j in s.state.inflight && s.state.inflight[j] == st.inflight[j];
      InflightKept(s.state, host, reacts, evs[1..], j);
    }
  }

  /** Concurrent callers never receive each other's results: whatever events
      come between, the reply for a job in flight invokes that job's callee
      and no other, at least once. */
  lemma ReplyReachesOwnCallee(st: State, host: ErrorHost, reacts: Reaction, evs: seq<Event>, msg: Reply)
    requires Inv(st) && msg.job in st.inflight
    requires forall k :: 0 <= k < |evs| ==> !(evs[k].Message? && evs[k].msg.job == msg.job)
    ensures var r := Run(st, host, reacts, evs).0;
      msg.job in r.inflight &&
      var s := OnMessage(r, host, msg, reacts);
      && 1 <= |s.calls|
      && (forall k :: 0 <= k < |s.calls| ==> s.calls[k].callee == st.inflight[msg.job])
  {
    InflightKept(st, host, reacts, evs, msg.job);
  }
}

=== FILE: errors.dfy ===
/** Error resolution and the allocation error value: a raw error number is
    turned into a symbolic code and a description, by libuv when it can be
    bound and by a generic fallback otherwise, and the error message is built
    as "<description or message> (<errno>, <code>)". */
module Errors {
  import opened Js
  import opened Util

  /** `{code, description}` */
  datatype Resolved = Resolved(code: string, description: string)

  /** An entry of the `errno` package's table; either field may be missing. */
  datatype ErrnoEntry = ErrnoEntry(code: Option<string>, description: Option<string>)

  /** The collaborators of error resolution: the host's native libraries, the
      libuv calls `_resolve` makes (name and text of the translated error; None
      when the foreign call throws), and the `errno` package's table. */
  datatype ErrorHost = ErrorHost(
    libs: Host,
    uv: (Option<string>, int) -> Option<Resolved>,
    table: map<int, ErrnoEntry>)

  /** The sentinel for failures detected locally, never a system error number. */
  const UnknownError: int := -1

  const Generic := Resolved("EGENERIC", "")
  const Unknown := Resolved("ERROR", "")

  const ResolverChain: seq<Candidate> := [
    Candidate(None, ErrorResolverUV),
    Candidate(Some("libuv"), ErrorResolverUV),
    Candidate(Some("uv"), ErrorResolverUV),
    Candidate(None, ErrorResolverBase)
  ]

  /** `resolve_error`: the resolver the chain binds. The static-table resolver
      always constructs, so the chain never yields null, and libuv is used
      exactly when one of its three candidate libraries exports all of its symbols. */
  function ResolverPick(libs: Host): (p: Picked)
    ensures p.cls == ErrorResolverUV || p.cls == ErrorResolverBase
    ensures p.name == "resolve_error"
    ensures p.cls == ErrorResolverUV <==>
      exists j :: 0 <= j < 3 && Constructs(libs, ResolverChain[j])
    ensures p.cls == ErrorResolverUV ==> Constructs(libs, Candidate(p.lib, ErrorResolverUV))
  {
    ResolverChainShape();
    PickOneFallback(libs, "resolve", "resolve_error", ResolverChain, 3);
    PickOne(libs, "resolve", "resolve_error", ResolverChain).value
  }

  lemma ResolverChainShape()
    ensures |ResolverChain| == 4 && ResolverChain[3] == Candidate(None, ErrorResolverBase)
    ensures forall j :: 0 <= j < 3 ==> ResolverChain[j].cls == ErrorResolverUV
  {
  }

  /** `_resolve_generic(e)`: a falsy or unknown number gives ERROR with no
      description; a known one gives the table's fields, each defaulted. */
  function ResolveGeneric(table: map<int, ErrnoEntry>, e: Option<int>): (r: Resolved)
    ensures e.None? || e.value == 0 || e.value !in table ==> r == Unknown
    ensures e.Some? && e.value in table && table[e.value] == ErrnoEntry(None, None) ==> r == Unknown
    ensures e.Some? && e.value != 0 && e.value in table ==>
      r.code == table[e.value].code.GetOr("ERROR") && r.description == table[e.value].description.GetOr("")
  {
    var entry := if e.Some? && e.value != 0 && e.value in table then table[e.value] else ErrnoEntry(None, None);
    Resolved(entry.code.GetOr("ERROR"), entry.description.GetOr(""))
  }

  /** `this._resolve(err)`: None when it throws, which includes the base
      resolver, that has no such method. */
  function ResolveBackend(host: ErrorHost, p: Picked, err: int): (r: Option<Resolved>)
    ensures p.cls == ErrorResolverUV ==> r == host.uv(p.lib, err)
    ensures p.cls == ErrorResolverBase ==> r.None?
    ensures r.Some? ==> p.cls == ErrorResolverUV
  {
    if "_resolve" in Methods(p.cls) then host.uv(p.lib, err) else None
  }

  /** `ErrorResolverBase.resolve(err)`. The fallback calls `_resolve_generic`
      with no argument, so it never consults the table. */
  function Resolve(host: ErrorHost, p: Picked, err: int): (r: Resolved)
    requires p.cls == ErrorResolverUV || p.cls == ErrorResolverBase
    ensures err == UnknownError ==> r == Generic
    ensures err != UnknownError && p.cls == ErrorResolverBase ==> r == Unknown
    ensures err != UnknownError && p.cls == ErrorResolverUV ==> r == host.uv(p.lib, err).GetOr(Unknown)
  {
    if err == UnknownError then Generic
    else
      match ResolveBackend(host, p, err)
      case Some(r) => r
      case None => ResolveGeneric(host.table, None)
  }

  /** Even a number the table knows resolves to ERROR when the backend throws. */
  lemma FallbackIgnoresTable(host: ErrorHost, p: Picked, err: int)
    requires p.cls == ErrorResolverUV || p.cls == ErrorResolverBase
    requires err != UnknownError && err != 0 && err in host.table
    requires host.table[err].code.Some? && host.table[err].code.value != "ERROR"
    requires ResolveBackend(host, p, err).None?
    ensures Resolve(host, p, err) == Unknown
    ensures Resolve(host, p, err) != ResolveGeneric(host.table, Some(err))
  {
  }

  /** `resolve_error(err)` */
  function ResolveError(host: ErrorHost, err: int): (r: Resolved)
    ensures err == UnknownError ==> r == Generic
    ensures err != UnknownError && ResolverPick(host.libs).cls == ErrorResolverBase ==> r == Unknown
    ensures err != UnknownError && ResolverPick(host.libs).cls == ErrorResolverUV ==>
      r == host.uv(ResolverPick(host.libs).lib, err).GetOr(Unknown)
  {
    Resolve(host, ResolverPick(host.libs), err)
  }

  /** An instance of `FallocateError`. */
  datatype FallocateError = FallocateError(errno: int, code: string, message: string)

  /** A string or null interpolated into a template literal. */
  function JsString(s: Option<string>): string {
    s.GetOr("null")
  }

  predicate EndsWith(s: string, suffix: string) {
    |suffix| <= |s| && s[|s| - |suffix|..] == suffix
  }

  /** What the constructor appends to the message: " (<errno>, <code>)". */
  function Suffix(err: int, code: string): string {
    " (" + IntToDecimal(err) + ", " + code + ")"
  }

  /** The message ends with the error's own number and code. */
  predicate WellFormed(e: FallocateError) {
    EndsWith(e.message, Suffix(e.errno, e.code))
  }

  /** `new FallocateError(err, message)` */
  function NewFallocateError(host: ErrorHost, err: int, message: Option<string>): (e: FallocateError)
    ensures e.errno == err
    ensures e.code == ResolveError(host, err).code
    ensures WellFormed(e)
    ensures ResolveError(host, err).description == "" ==> e.message == JsString(message) + Suffix(err, e.code)
    ensures ResolveError(host, err).description != "" ==>
      e.message == ResolveError(host, err).description + Suffix(err, e.code)
  {
    var r := ResolveError(host, err);
    var head := if r.description != "" then r.description else JsString(message);
    var suffix := Suffix(err, r.code);
    assert (head + suffix)[|head + suffix| - |suffix|..] == suffix;
    FallocateError(err, r.code, head + suffix)
  }

  /** The suffix of every local failure, " (-1, EGENERIC)" by `LocalSuffixText`. */
  const LocalSuffix := Suffix(UnknownError, "EGENERIC")

  /** The error a local failure with text `message` raises. */
  function LocalError(message: string): FallocateError {
    FallocateError(UnknownError, "EGENERIC", message + LocalSuffix)
  }

  /** A local failure always carries errno -1 and code EGENERIC, and its
      message is the caller's text followed by the suffix for those two,
      whatever resolver the host provides. */
  lemma LocalErrorShape(host: ErrorHost, message: Option<string>)
    ensures NewFallocateError(host, UnknownError, message) == LocalError(JsString(message))
  {
    assert ResolveError(host, UnknownError) == Generic;
  }

  /** The suffix of a local failure reads " (-1, EGENERIC)". */
  lemma LocalSuffixText()
    ensures LocalSuffix == " (-1, EGENERIC)"
  {
    assert IntToDecimal(UnknownError) == "-1";
  }
}

=== FILE: fallocate.dfy ===
/** The synchronous allocation strategies: argument validation shared by all
    of them, the two ways of calling a native entry point and reading its
    result, the POSIX-over-direct composite, the façade that holds a file
    handle around one call, and the four chains that bind the exported
    functions. Native calls and `fs.openSync` are oracles of `Sys`. */
module Fallocate {
  import opened Js
  import opened Util
  import opened Errors

  /** The checks `ffallocate` makes before any native call, in order. */
  datatype Check = NotImplemented | InvalidOffset | InvalidLength | InvalidMode

  function CheckMessage(c: Check): string {
    match c
    case NotImplemented => "Not implemented"
    case InvalidOffset => "Invalid offset"
    case InvalidLength => "Invalid length"
    case InvalidMode => "Invalid mode"
  }

  /** Arguments that passed validation. */
  datatype Args = Args(offset: int, length: int, mode: int)

  /** The accepted offsets: integers from 0 to 2^31 - 1, whatever the native width. */
  predicate OffsetAccepted(v: Value) {
    v.Num? && v.n.Int? && 0 <= v.n.i <= Int32Max
  }

  /** The accepted lengths: integers from 1 to 2^31 - 1. */
  predicate LengthAccepted(v: Value) {
    v.Num? && v.n.Int? && 1 <= v.n.i <= Int32Max
  }

  /** The accepted modes: any falsy value, or a signed 32-bit integer. */
  predicate ModeAccepted(v: Value) {
    !Truthy(v) || (v.Num? && v.n.Int? && InInt32(v.n.i))
  }

  /** The mode handed on after `mode = mode || 0`. */
  function NormalMode(v: Value): int
    requires ModeAccepted(v)
  {
    if Truthy(v) then v.n.i else 0
  }

  /** The checks at the head of `ffallocate`, written with the JavaScript
      operators the source uses; the contract restates them as ranges. */
  function Validate(fnPresent: bool, offset: Value, length: Value, mode: Value): (r: Result<Args, Check>)
    ensures !fnPresent ==> r == Failure(NotImplemented)
    ensures fnPresent && !OffsetAccepted(offset) ==> r == Failure(InvalidOffset)
    ensures fnPresent && OffsetAccepted(offset) && !LengthAccepted(length) ==> r == Failure(InvalidLength)
    ensures fnPresent && OffsetAccepted(offset) && LengthAccepted(length) && !ModeAccepted(mode)
            ==> r == Failure(InvalidMode)
    ensures r.Success? <==> fnPresent && OffsetAccepted(offset) && LengthAccepted(length) && ModeAccepted(mode)
    ensures r.Success? ==> r.value == Args(offset.n.i, length.n.i, NormalMode(mode))
  {
    if !fnPresent then Failure(NotImplemented)
    else
      var mode' := if Truthy(mode) then mode else Num(Int(0));
      SurvivesBitOrIff(offset);
      SurvivesBitOrIff(length);
      SurvivesBitOrIff(mode');
      if LessThan(offset, 0) || !SurvivesBitOr(offset) then Failure(InvalidOffset)
      else if LessThan(length, 1) || !SurvivesBitOr(length) then Failure(InvalidLength)
      else if Truthy(mode') && !SurvivesBitOr(mode') then Failure(InvalidMode)
      else Success(Args(offset.n.i, length.n.i, mode'.n.i))
  }

  /** What a file descriptor argument holds: a real descriptor, or a path
      string passed where a descriptor is expected (and the reverse). */
  datatype Target = Path(path: string) | Fd(fd: int)

  /** `fs.openSync(target, "a")`: a descriptor, or the error it throws. */
  datatype OpenResult = Opened(fd: int) | OpenFailed(message: string, errno: Option<int>)

  /** One call of a bound native entry point: the library, the symbol, the
      descriptor and the remaining integer arguments in order. */
  datatype NativeCall = NativeCall(lib: Option<string>, symbol: string, fd: Target, args: seq<int>)

  /** The native return value and `ffi.errno()` read after the call. */
  datatype NativeReturn = NativeReturn(rv: int, errno: int)

  /** The collaborators of a synchronous allocation. */
  datatype Sys = Sys(
    errors: ErrorHost,
    native: NativeCall -> NativeReturn,
    open: Target -> OpenResult)

  /** An exception: a `FallocateError`, or another error (from `fs`) with an optional errno. */
  datatype Thrown = Allocation(e: FallocateError) | Other(message: string, errno: Option<int>)

  datatype Outcome = Returned | Threw(ex: Thrown)

  /** Every `FallocateError` thrown shows its own errno and code at the end of its message. */
  predicate OutcomeWellFormed(o: Outcome) {
    o.Threw? && o.ex.Allocation? ==> WellFormed(o.ex.e)
  }

  /** What one synchronous call did: the native calls it made, the handles it
      opened and closed, and how it ended. */
  datatype Trace = Trace(calls: seq<NativeCall>, opens: nat, closes: nat, outcome: Outcome)

  predicate IsDirect(c: Class) {
    c == Fallocate64 || c == Fallocate || c == FallocateBase
  }

  predicate IsPosix(c: Class) {
    c == PosixFallocate64 || c == PosixFallocate || c == PosixFallocateFallocate || c == PosixFallocateBase
  }

  predicate IsStrategy(c: Class) {
    IsDirect(c) || IsPosix(c)
  }

  /** `this.fn` is truthy once the constructor has returned. */
  predicate FnPresent(c: Class) {
    c == Fallocate64 || c == Fallocate || c == PosixFallocate64 || c == PosixFallocate
    || c == PosixFallocateFallocate
  }

  /** The native symbol a class binds. */
  function NativeName(c: Class): string {
    match c
    case Fallocate64 => "fallocate64"
    case Fallocate => "fallocate"
    case PosixFallocate64 => "posix_fallocate64"
    case PosixFallocate => "posix_fallocate"
    case _ => ""
  }

  /** The composite calls back into the direct chain, one level deep. */
  function Rank(c: Class): nat {
    if c == PosixFallocateFallocate then 1 else 0
  }

  /** Every native call receives integers in the signed 32-bit range, a
      non-negative offset and a positive length as its last two arguments. */
  predicate CallFits(c: NativeCall) {
    && |c.args| >= 2
    && (forall j :: 0 <= j < |c.args| ==> InInt32(c.args[j]))
    && c.args[|c.args| - 2] >= 0
    && c.args[|c.args| - 1] >= 1
  }

  predicate CallsFit(calls: seq<NativeCall>) {
    forall k :: 0 <= k < |calls| ==> CallFits(calls[k])
  }

  /** The arguments that reach a native entry point fit its offset type on
      every host: whichever width `off_guess_t` takes for the pointer size,
      the conversion never truncates an offset or a length. */
  lemma CallsNeverTruncate(calls: seq<NativeCall>, pointerSize: nat)
    requires CallsFit(calls)
    ensures forall k, j :: 0 <= k < |calls| && 0 <= j < |calls[k].args| ==>
      FitsSigned(calls[k].args[j], OffGuessBits(pointerSize))
  {
  }

  /** A failure detected before any native call. */
  function LocalFailure(sys: Sys, message: string): Trace {
    Trace([], 0, 0, Threw(Allocation(NewFallocateError(sys.errors, UnknownError, Some(message)))))
  }

  const PosixModeMessage := "Invalid mode supplied for posix_fallocate"
  const AllocationFailed := "Allocation failed"

  const DirectChain: seq<Candidate> := [
    Candidate(None, Fallocate64), Candidate(Some("libc"), Fallocate64), Candidate(Some("c"), Fallocate64),
    Candidate(None, Fallocate), Candidate(Some("libc"), Fallocate), Candidate(Some("c"), Fallocate),
    Candidate(None, FallocateBase)
  ]

  const PosixChain: seq<Candidate> := [
    Candidate(None, PosixFallocate64), Candidate(Some("libc"), PosixFallocate64),
    Candidate(Some("c"), PosixFallocate64),
    Candidate(None, PosixFallocate), Candidate(Some("libc"), PosixFallocate), Candidate(Some("c"), PosixFallocate),
    Candidate(None, PosixFallocateFallocate),
    Candidate(None, PosixFallocateBase)
  ]

  lemma DirectChainShape()
    ensures |DirectChain| == 7 && DirectChain[6] == Candidate(None, FallocateBase)
    ensures forall j :: 0 <= j < 6 ==> DirectChain[j].cls == Fallocate64 || DirectChain[j].cls == Fallocate
  {
  }

  lemma PosixChainShape()
    ensures |PosixChain| == 8 && PosixChain[6] == Candidate(None, PosixFallocateFallocate)
    ensures PosixChain[7] == Candidate(None, PosixFallocateBase)
    ensures forall j :: 0 <= j < 6 ==> PosixChain[j].cls == PosixFallocate64 || PosixChain[j].cls == PosixFallocate
  {
  }

  /** The direct chain: never null, and it falls back to the unimplemented
      base exactly when none of the six native candidates can be bound. */
  function DirectPick(libs: Host, symbol: string, name: string): (p: Picked)
    requires symbol == "fallocate" || symbol == "ffallocate"
    ensures IsDirect(p.cls)
    ensures p.name == BoundName(name, p.cls)
    ensures p.cls == FallocateBase <==> forall j :: 0 <= j < 6 ==> !Constructs(libs, DirectChain[j])
    ensures p.cls != FallocateBase ==> Constructs(libs, Candidate(p.lib, p.cls))
  {
    DirectChainShape();
    PickOneFallback(libs, symbol, name, DirectChain, 6);
    PickOne(libs, symbol, name, DirectChain).value
  }

  /** The POSIX chain: never null, never the unimplemented base (the composite
      before it always constructs), and the composite exactly when none of the
      six native candidates can be bound. */
  function PosixPick(libs: Host, symbol: string, name: string): (p: Picked)
    requires symbol == "fallocate" || symbol == "ffallocate"
    ensures IsPosix(p.cls) && p.cls != PosixFallocateBase
    ensures p.name == BoundName(name, p.cls)
    ensures p.cls == PosixFallocateFallocate <==> forall j :: 0 <= j < 6 ==> !Constructs(libs, PosixChain[j])
    ensures p.cls != PosixFallocateFallocate ==> Constructs(libs, Candidate(p.lib, p.cls))
  {
    PosixChainShape();
    PickOneFallback(libs, symbol, name, PosixChain, 6);
    PickOne(libs, symbol, name, PosixChain).value
  }

  /** `fallocateSync` */
  function FallocateSync(libs: Host): (p: Picked)
    ensures IsDirect(p.cls) && p.name == "fallocateSync"
  {
    DirectPick(libs, "fallocate", "fallocateSync")
  }

  /** `ffallocateSync` */
  function FfallocateSync(libs: Host): (p: Picked)
    ensures IsDirect(p.cls) && p.name == "ffallocateSync"
  {
    DirectPick(libs, "ffallocate", "ffallocateSync")
  }

  /** `posix_fallocateSync` */
  function PosixFallocateSync(libs: Host): (p: Picked)
    ensures IsPosix(p.cls) && p.cls != PosixFallocateBase && p.name == "posix_fallocateSync"
  {
    PosixPick(libs, "fallocate", "posix_fallocateSync")
  }

  /** `fposix_fallocateSync` */
  function FposixFallocateSync(libs: Host): (p: Picked)
    ensures IsPosix(p.cls) && p.cls != PosixFallocateBase && p.name == "fposix_fallocateSync"
  {
    PosixPick(libs, "ffallocate", "fposix_fallocateSync")
  }

  /** `fallocate(path, offset, length, mode)` of a strategy: open the path for
      appending, run `ffallocate` on the descriptor, and close it on every exit. */
  function Facade(sys: Sys, p: Picked, path: Target, offset: Value, length: Value, mode: Value): (t: Trace)
    requires IsStrategy(p.cls)
    decreases Rank(p.cls), 2
    ensures t.opens == t.closes
    ensures CallsFit(t.calls)
    ensures OutcomeWellFormed(t.outcome)
    ensures sys.open(path).OpenFailed? ==>
      t == Trace([], 0, 0, Threw(Other(sys.open(path).message, sys.open(path).errno)))
    ensures sys.open(path).Opened? ==> t.opens >= 1
    ensures sys.open(path).Opened? && Validate(FnPresent(p.cls), offset, length, mode).Failure? ==>
      t == Trace([], 1, 1, LocalFailure(sys, CheckMessage(Validate(FnPresent(p.cls), offset, length, mode).error)).outcome)
  {
    match sys.open(path)
    case OpenFailed(message, errno) => Trace([], 0, 0, Threw(Other(message, errno)))
    case Opened(fd) =>
      var t := Ffallocate(sys, p, Fd(fd), offset, length, mode);
      t.(opens := t.opens + 1, closes := t.closes + 1)
  }

  /** `ffallocate(fd, offset, length, mode)`: the checks in order, then `_fallocate`. */
  function Ffallocate(sys: Sys, p: Picked, fd: Target, offset: Value, length: Value, mode: Value): (t: Trace)
    requires IsStrategy(p.cls)
    decreases Rank(p.cls), 1
    ensures t.opens == t.closes
    ensures CallsFit(t.calls)
    ensures OutcomeWellFormed(t.outcome)
    ensures Validate(FnPresent(p.cls), offset, length, mode).Failure? ==>
      t == LocalFailure(sys, CheckMessage(Validate(FnPresent(p.cls), offset, length, mode).error))
    ensures !FnPresent(p.cls) ==> t == LocalFailure(sys, "Not implemented")
  {
    match Validate(FnPresent(p.cls), offset, length, mode)
    case Failure(c) => LocalFailure(sys, CheckMessage(c))
    case Success(a) => Dispatch(sys, p, fd, a)
  }

  /** Once the checks pass, `ffallocate` is the bound class's own call on the
      normalised arguments: the direct call, the POSIX call, or, for the
      composite, the direct `fallocateSync` on the descriptor with mode 0. */
  lemma FfallocateDispatches(sys: Sys, p: Picked, fd: Target, offset: Value, length: Value, mode: Value)
    requires IsStrategy(p.cls)
    ensures Validate(FnPresent(p.cls), offset, length, mode).Success? ==>
      var t := Ffallocate(sys, p, fd, offset, length, mode);
      var a := Args(offset.n.i, length.n.i, NormalMode(mode));
      && (p.cls == Fallocate64 || p.cls == Fallocate ==> t == DirectCall(sys, p, fd, a))
      && (p.cls == PosixFallocate64 || p.cls == PosixFallocate ==> t == PosixCall(sys, p, fd, a))
      && (p.cls == PosixFallocateFallocate ==>
            t == Facade(sys, FallocateSync(sys.errors.libs), fd, offset, length, Num(Int(0))))
  {
    var v := Validate(FnPresent(p.cls), offset, length, mode);
    if v.Success? {
      assert v.value == Args(offset.n.i, length.n.i, NormalMode(mode));
      assert Ffallocate(sys, p, fd, offset, length, mode) == Dispatch(sys, p, fd, v.value);
    }
  }

  /** `_fallocate` of the direct classes: `fn(fd, mode, offset, length)`; a
      non-zero result throws with `ffi.errno()`, or the result itself when
      that is 0. */
  function DirectCall(sys: Sys, p: Picked, fd: Target, a: Args): (t: Trace)
    requires p.cls == Fallocate64 || p.cls == Fallocate
    requires 0 <= a.offset <= Int32Max && 1 <= a.length <= Int32Max && InInt32(a.mode)
    ensures t.opens == 0 && t.closes == 0
    ensures CallsFit(t.calls)
    ensures OutcomeWellFormed(t.outcome)
    ensures var call := NativeCall(p.lib, NativeName(p.cls), fd, [a.mode, a.offset, a.length]);
      var ret := sys.native(call);
      && t.calls == [call]
      && (t.outcome == Returned <==> ret.rv == 0)
      && (ret.rv != 0 ==> t.outcome.ex.Allocation?
                          && t.outcome.ex.e.errno == (if ret.errno != 0 then ret.errno else ret.rv))
  {
    var call := NativeCall(p.lib, NativeName(p.cls), fd, [a.mode, a.offset, a.length]);
    assert CallFits(call);
    var ret := sys.native(call);
    if ret.rv != 0 then
      var errno := if ret.errno != 0 then ret.errno else ret.rv;
      Trace([call], 0, 0, Threw(Allocation(NewFallocateError(sys.errors, errno, Some(AllocationFailed)))))
    else Trace([call], 0, 0, Returned)
  }

  /** `_fallocate` of the POSIX classes: a truthy mode is refused before the
      call; otherwise `fn(fd, offset, length)`, whose non-zero result is
      itself the error number. */
  function PosixCall(sys: Sys, p: Picked, fd: Target, a: Args): (t: Trace)
    requires p.cls == PosixFallocate64 || p.cls == PosixFallocate
    requires 0 <= a.offset <= Int32Max && 1 <= a.length <= Int32Max
    ensures t.opens == 0 && t.closes == 0
    ensures CallsFit(t.calls)
    ensures OutcomeWellFormed(t.outcome)
    ensures a.mode != 0 ==> t == LocalFailure(sys, PosixModeMessage)
    ensures a.mode == 0 ==>
      var call := NativeCall(p.lib, NativeName(p.cls), fd, [a.offset, a.length]);
      var ret := sys.native(call);
      && t.calls == [call]
      && (t.outcome == Returned <==> ret.rv == 0)
      && (ret.rv != 0 ==> t.outcome.ex.Allocation? && t.outcome.ex.e.errno == ret.rv)
  {
    if a.mode != 0 then LocalFailure(sys, PosixModeMessage)
    else
      var call := NativeCall(p.lib, NativeName(p.cls), fd, [a.offset, a.length]);
      var ret := sys.native(call);
      if ret.rv != 0 then
        Trace([call], 0, 0, Threw(Allocation(NewFallocateError(sys.errors, ret.rv, Some(AllocationFailed)))))
      else Trace([call], 0, 0, Returned)
  }

  /** `_fallocate(fd, offset, length, mode)` of the bound class, on validated arguments. */
  function Dispatch(sys: Sys, p: Picked, fd: Target, a: Args): (t: Trace)
    requires FnPresent(p.cls)
    requires 0 <= a.offset <= Int32Max && 1 <= a.length <= Int32Max && InInt32(a.mode)
    decreases Rank(p.cls), 0
    ensures t.opens == t.closes
    ensures CallsFit(t.calls)
    ensures OutcomeWellFormed(t.outcome)
    ensures p.cls == Fallocate64 || p.cls == Fallocate ==> t == DirectCall(sys, p, fd, a)
    ensures p.cls == PosixFallocate64 || p.cls == PosixFallocate ==> t == PosixCall(sys, p, fd, a)
  {
    match p.cls
    case PosixFallocateFallocate =>
      // `this._fallocate` set in the constructor: the POSIX mode check never
      // runs and the mode is replaced by 0; the descriptor goes to the
      // path-taking `fallocateSync`.
      Facade(sys, FallocateSync(sys.errors.libs), fd, Num(Int(a.offset)), Num(Int(a.length)), Num(Int(0)))
    case PosixFallocate64 | PosixFallocate => PosixCall(sys, p, fd, a)
    case Fallocate64 | Fallocate => DirectCall(sys, p, fd, a)
  }

  /** `fallocateSync(path, offset, length, mode)`: with the path open and a
      native entry point bound, accepted arguments give exactly one native
      call, `fn(fd, mode, offset, length)` on the opened descriptor, whose
      result decides the outcome; the unimplemented base refuses every call. */
  function FallocateSyncCall(sys: Sys, path: string, offset: Value, length: Value, mode: Value): (t: Trace)
    ensures t.opens == t.closes && CallsFit(t.calls) && OutcomeWellFormed(t.outcome)
    ensures sys.open(Path(path)).OpenFailed? ==>
      t == Trace([], 0, 0, Threw(Other(sys.open(Path(path)).message, sys.open(Path(path)).errno)))
    ensures sys.open(Path(path)).Opened? && FallocateSync(sys.errors.libs).cls == FallocateBase ==>
      t == Trace([], 1, 1, LocalFailure(sys, "Not implemented").outcome)
    ensures var p := FallocateSync(sys.errors.libs);
      sys.open(Path(path)).Opened? && p.cls != FallocateBase
      && OffsetAccepted(offset) && LengthAccepted(length) && ModeAccepted(mode) ==>
      var call := NativeCall(p.lib, NativeName(p.cls), Fd(sys.open(Path(path)).fd),
                             [NormalMode(mode), offset.n.i, length.n.i]);
      var ret := sys.native(call);
      && t.calls == [call] && t.opens == 1
      && (t.outcome == Returned <==> ret.rv == 0)
      && (ret.rv != 0 ==> t.outcome.ex.Allocation?
                          && t.outcome.ex.e.errno == (if ret.errno != 0 then ret.errno else ret.rv))
  {
    DirectNativeOpened(sys, FallocateSync(sys.errors.libs), Path(path), offset, length, mode);
    BaseOpened(sys, FallocateSync(sys.errors.libs), Path(path), offset, length, mode);
    Facade(sys, FallocateSync(sys.errors.libs), Path(path), offset, length, mode)
  }

  /** The unimplemented base on an opened target refuses every call after
      opening and closing one handle. */
  lemma BaseOpened(sys: Sys, q: Picked, target: Target, offset: Value, length: Value, mode: Value)
    requires IsDirect(q.cls)
    ensures q.cls == FallocateBase && sys.open(target).Opened? ==>
      Facade(sys, q, target, offset, length, mode) == Trace([], 1, 1, LocalFailure(sys, "Not implemented").outcome)
  {
    FacadeOpened(sys, q, target, offset, length, mode);
  }

  /** A native direct strategy on an opened target, with accepted arguments:
      one call, `fn(fd, mode, offset, length)` on the new descriptor, whose
      result decides the outcome. */
  lemma DirectNativeOpened(sys: Sys, q: Picked, target: Target, offset: Value, length: Value, mode: Value)
    requires IsDirect(q.cls)
    ensures && q.cls != FallocateBase && sys.open(target).Opened?
            && OffsetAccepted(offset) && LengthAccepted(length) && ModeAccepted(mode) ==>
      var t := Facade(sys, q, target, offset, length, mode);
      var call := NativeCall(q.lib, NativeName(q.cls), Fd(sys.open(target).fd), [NormalMode(mode), offset.n.i, length.n.i]);
      var ret := sys.native(call);
      && t.calls == [call] && t.opens == 1
      && (t.outcome == Returned <==> ret.rv == 0)
      && (ret.rv != 0 ==> t.outcome.ex.Allocation?
                          && t.outcome.ex.e.errno == (if ret.errno != 0 then ret.errno else ret.rv))
  {
    DirectOnOpened(sys, q, target, offset, length, mode);
  }

  /** `posix_fallocateSync(path, offset, length, mode)`: a native POSIX entry
      point refuses a non-zero mode after opening the path and otherwise makes
      one call, `fn(fd, offset, length)`, whose result is the error number;
      the composite reopens the descriptor through the direct `fallocateSync`
      with mode 0. */
  function PosixFallocateSyncCall(sys: Sys, path: string, offset: Value, length: Value, mode: Value): (t: Trace)
    ensures t.opens == t.closes && CallsFit(t.calls) && OutcomeWellFormed(t.outcome)
    ensures sys.open(Path(path)).OpenFailed? ==>
      t == Trace([], 0, 0, Threw(Other(sys.open(Path(path)).message, sys.open(Path(path)).errno)))
    ensures var p := PosixFallocateSync(sys.errors.libs);
      sys.open(Path(path)).Opened? && p.cls != PosixFallocateFallocate
      && OffsetAccepted(offset) && LengthAccepted(length) && ModeAccepted(mode) && NormalMode(mode) != 0 ==>
      t == Trace([], 1, 1, LocalFailure(sys, PosixModeMessage).outcome)
    ensures var p := PosixFallocateSync(sys.errors.libs);
      sys.open(Path(path)).Opened? && p.cls != PosixFallocateFallocate
      && OffsetAccepted(offset) && LengthAccepted(length) && ModeAccepted(mode) && NormalMode(mode) == 0 ==>
      var call := NativeCall(p.lib, NativeName(p.cls), Fd(sys.open(Path(path)).fd), [offset.n.i, length.n.i]);
      var ret := sys.native(call);
      && t.calls == [call] && t.opens == 1
      && (t.outcome == Returned <==> ret.rv == 0)
      && (ret.rv != 0 ==> t.outcome.ex.Allocation? && t.outcome.ex.e.errno == ret.rv)
    ensures var p := PosixFallocateSync(sys.errors.libs);
      sys.open(Path(path)).Opened? && p.cls == PosixFallocateFallocate
      && OffsetAccepted(offset) && LengthAccepted(length) && ModeAccepted(mode) ==>
      var inner := Facade(sys, FallocateSync(sys.errors.libs), Fd(sys.open(Path(path)).fd), offset, length, Num(Int(0)));
      t == inner.(opens := inner.opens + 1, closes := inner.closes + 1)
  {
    var p := PosixFallocateSync(sys.errors.libs);
    FacadeOpened(sys, p, Path(path), offset, length, mode);
    PosixNativeOpened(sys, p, path, offset, length, mode);
    CompositeOpened(sys, p, path, offset, length, mode);
    Facade(sys, p, Path(path), offset, length, mode)
  }

  /** The composite on an opened path: the direct `fallocateSync` with mode 0
      on the new descriptor, inside one more open and close. */
  lemma CompositeOpened(sys: Sys, p: Picked, path: string, offset: Value, length: Value, mode: Value)
    requires IsPosix(p.cls)
    ensures && p.cls == PosixFallocateFallocate && sys.open(Path(path)).Opened?
            && OffsetAccepted(offset) && LengthAccepted(length) && ModeAccepted(mode) ==>
      var inner := Facade(sys, FallocateSync(sys.errors.libs), Fd(sys.open(Path(path)).fd), offset, length, Num(Int(0)));
      Facade(sys, p, Path(path), offset, length, mode) == inner.(opens := inner.opens + 1, closes := inner.closes + 1)
  {
    FacadeOpened(sys, p, Path(path), offset, length, mode);
    if sys.open(Path(path)).Opened? {
      FfallocateDispatches(sys, p, Fd(sys.open(Path(path)).fd), offset, length, mode);
    }
  }

  /** A native POSIX strategy on an opened path: the refusal of a non-zero mode,
      or the one call with mode 0, inside one open and one close. */
  lemma PosixNativeOpened(sys: Sys, p: Picked, path: string, offset: Value, length: Value, mode: Value)
    requires p.cls == PosixFallocate64 || p.cls == PosixFallocate || p.cls == PosixFallocateFallocate
    ensures && sys.open(Path(path)).Opened? && p.cls != PosixFallocateFallocate
            && OffsetAccepted(offset) && LengthAccepted(length) && ModeAccepted(mode) ==>
      var t := Facade(sys, p, Path(path), offset, length, mode);
      var call := NativeCall(p.lib, NativeName(p.cls), Fd(sys.open(Path(path)).fd), [offset.n.i, length.n.i]);
      && (NormalMode(mode) != 0 ==> t == Trace([], 1, 1, LocalFailure(sys, PosixModeMessage).outcome))
      && (NormalMode(mode) == 0 ==>
            && t.calls == [call] && t.opens == 1
            && (t.outcome == Returned <==> sys.native(call).rv == 0)
            && (sys.native(call).rv != 0 ==> t.outcome.ex.Allocation? && t.outcome.ex.e.errno == sys.native(call).rv))
  {
    if sys.open(Path(path)).Opened? && p.cls != PosixFallocateFallocate
       && OffsetAccepted(offset) && LengthAccepted(length) && ModeAccepted(mode) {
      var fd := Fd(sys.open(Path(path)).fd);
      FacadeOpened(sys, p, Path(path), offset, length, mode);
      assert Ffallocate(sys, p, fd, offset, length, mode)
             == PosixCall(sys, p, fd, Args(offset.n.i, length.n.i, NormalMode(mode)));
    }
  }

  /** With the path open, the façade is `ffallocate` on the new descriptor plus one open and one close. */
  lemma FacadeOpened(sys: Sys, p: Picked, path: Target, offset: Value, length: Value, mode: Value)
    requires IsStrategy(p.cls)
    ensures sys.open(path).Opened? ==>
      var inner := Ffallocate(sys, p, Fd(sys.open(path).fd), offset, length, mode);
      Facade(sys, p, path, offset, length, mode) == inner.(opens := inner.opens + 1, closes := inner.closes + 1)
  {
  }

  /** `ffallocateSync(fd, offset, length, mode)`: the same as `fallocateSync`
      on a descriptor the caller holds, with no handle opened. */
  function FfallocateSyncCall(sys: Sys, fd: Target, offset: Value, length: Value, mode: Value): (t: Trace)
    ensures t.opens == 0 && t.closes == 0 && CallsFit(t.calls) && OutcomeWellFormed(t.outcome)
    ensures FfallocateSync(sys.errors.libs).cls == FallocateBase ==> t == LocalFailure(sys, "Not implemented")
    ensures var p := FfallocateSync(sys.errors.libs);
      p.cls != FallocateBase && OffsetAccepted(offset) && LengthAccepted(length) && ModeAccepted(mode) ==>
      var call := NativeCall(p.lib, NativeName(p.cls), fd, [NormalMode(mode), offset.n.i, length.n.i]);
      var ret := sys.native(call);
      && t.calls == [call]
      && (t.outcome == Returned <==> ret.rv == 0)
      && (ret.rv != 0 ==> t.outcome.ex.Allocation?
                          && t.outcome.ex.e.errno == (if ret.errno != 0 then ret.errno else ret.rv))
  {
    DirectNative(sys, FfallocateSync(sys.errors.libs), fd, offset, length, mode);
    Ffallocate(sys, FfallocateSync(sys.errors.libs), fd, offset, length, mode)
  }

  /** A native direct strategy on a descriptor, with accepted arguments: one
      call, `fn(fd, mode, offset, length)`, whose result decides the outcome. */
  lemma DirectNative(sys: Sys, q: Picked, fd: Target, offset: Value, length: Value, mode: Value)
    requires IsDirect(q.cls)
    ensures q.cls != FallocateBase && OffsetAccepted(offset) && LengthAccepted(length) && ModeAccepted(mode) ==>
      var t := Ffallocate(sys, q, fd, offset, length, mode);
      var call := NativeCall(q.lib, NativeName(q.cls), fd, [NormalMode(mode), offset.n.i, length.n.i]);
      var ret := sys.native(call);
      && t.calls == [call]
      && (t.outcome == Returned <==> ret.rv == 0)
      && (ret.rv != 0 ==> t.outcome.ex.Allocation?
                          && t.outcome.ex.e.errno == (if ret.errno != 0 then ret.errno else ret.rv))
  {
    FfallocateDispatches(sys, q, fd, offset, length, mode);
  }

  /** `fposix_fallocateSync(fd, offset, length, mode)`: the same as
      `posix_fallocateSync` on a descriptor the caller holds. */
  function FposixFallocateSyncCall(sys: Sys, fd: Target, offset: Value, length: Value, mode: Value): (t: Trace)
    ensures t.opens == t.closes && CallsFit(t.calls) && OutcomeWellFormed(t.outcome)
    ensures var p := FposixFallocateSync(sys.errors.libs);
      p.cls != PosixFallocateFallocate
      && OffsetAccepted(offset) && LengthAccepted(length) && ModeAccepted(mode) && NormalMode(mode) != 0 ==>
      t == LocalFailure(sys, PosixModeMessage)
    ensures var p := FposixFallocateSync(sys.errors.libs);
      p.cls != PosixFallocateFallocate
      && OffsetAccepted(offset) && LengthAccepted(length) && ModeAccepted(mode) && NormalMode(mode) == 0 ==>
      var call := NativeCall(p.lib, NativeName(p.cls), fd, [offset.n.i, length.n.i]);
      var ret := sys.native(call);
      && t.calls == [call] && t.opens == 0
      && (t.outcome == Returned <==> ret.rv == 0)
      && (ret.rv != 0 ==> t.outcome.ex.Allocation? && t.outcome.ex.e.errno == ret.rv)
    ensures && FposixFallocateSync(sys.errors.libs).cls == PosixFallocateFallocate
            && OffsetAccepted(offset) && LengthAccepted(length) && ModeAccepted(mode) ==>
      t == Facade(sys, FallocateSync(sys.errors.libs), fd, offset, length, Num(Int(0)))
  {
    FfallocateDispatches(sys, FposixFallocateSync(sys.errors.libs), fd, offset, length, mode);
    Ffallocate(sys, FposixFallocateSync(sys.errors.libs), fd, offset, length, mode)
  }

  /** Whatever the strategy and the host, a failed check throws before any
      native call, and the error is the local one of the first failing check. */
  lemma RejectedBeforeNative(sys: Sys, p: Picked, fd: Target, offset: Value, length: Value, mode: Value)
    requires IsStrategy(p.cls)
    requires Validate(FnPresent(p.cls), offset, length, mode).Failure?
    ensures var t := Ffallocate(sys, p, fd, offset, length, mode);
      && t.calls == [] && t.opens == 0
      && t.outcome == Threw(Allocation(LocalError(CheckMessage(Validate(FnPresent(p.cls), offset, length, mode).error))))
  {
    LocalErrorShape(sys.errors, Some(CheckMessage(Validate(FnPresent(p.cls), offset, length, mode).error)));
  }

  /** An offset the checks refuse throws the local "Invalid offset" error. */
  lemma InvalidOffsetRejected(sys: Sys, p: Picked, fd: Target, offset: Value, length: Value, mode: Value)
    requires FnPresent(p.cls) && !OffsetAccepted(offset)
    ensures Ffallocate(sys, p, fd, offset, length, mode).outcome == Threw(Allocation(LocalError("Invalid offset")))
  {
    assert Validate(FnPresent(p.cls), offset, length, mode) == Failure(InvalidOffset);
    RejectedBeforeNative(sys, p, fd, offset, length, mode);
  }

  /** After an accepted offset, a length the checks refuse throws the local
      "Invalid length" error. */
  lemma InvalidLengthRejected(sys: Sys, p: Picked, fd: Target, offset: Value, length: Value, mode: Value)
    requires FnPresent(p.cls) && OffsetAccepted(offset) && !LengthAccepted(length)
    ensures Ffallocate(sys, p, fd, offset, length, mode).outcome == Threw(Allocation(LocalError("Invalid length")))
  {
    assert Validate(FnPresent(p.cls), offset, length, mode) == Failure(InvalidLength);
    RejectedBeforeNative(sys, p, fd, offset, length, mode);
  }

  /** The offsets the test suite tries, -1, NaN and 1.09, are refused as
      offsets by every implemented strategy, whatever the length and mode. */
  lemma TestSuiteInvalidOffsets(sys: Sys, p: Picked, fd: Target, length: Value, mode: Value)
    requires FnPresent(p.cls)
    ensures Ffallocate(sys, p, fd, Num(Int(-1)), length, mode).outcome == Threw(Allocation(LocalError("Invalid offset")))
    ensures Ffallocate(sys, p, fd, Num(NaN), length, mode).outcome == Threw(Allocation(LocalError("Invalid offset")))
    ensures Ffallocate(sys, p, fd, Num(Frac(1)), length, mode).outcome == Threw(Allocation(LocalError("Invalid offset")))
  {
    InvalidOffsetRejected(sys, p, fd, Num(Int(-1)), length, mode);
    InvalidOffsetRejected(sys, p, fd, Num(NaN), length, mode);
    InvalidOffsetRejected(sys, p, fd, Num(Frac(1)), length, mode);
  }

  /** The lengths the test suite tries at offset 0 (-1, NaN, 1.09 and
      Infinity), and 0, are refused as lengths by every implemented strategy. */
  lemma TestSuiteInvalidLengths(sys: Sys, p: Picked, fd: Target, mode: Value)
    requires FnPresent(p.cls)
    ensures forall l :: l in [Num(Int(-1)), Num(Int(0)), Num(NaN), Num(Frac(1)), Num(PosInf)] ==>
      Ffallocate(sys, p, fd, Num(Int(0)), l, mode).outcome == Threw(Allocation(LocalError("Invalid length")))
  {
    forall l | l in [Num(Int(-1)), Num(Int(0)), Num(NaN), Num(Frac(1)), Num(PosInf)]
      ensures Ffallocate(sys, p, fd, Num(Int(0)), l, mode).outcome == Threw(Allocation(LocalError("Invalid length")))
    {
      InvalidLengthRejected(sys, p, fd, Num(Int(0)), l, mode);
    }
  }

  /** A native POSIX strategy refuses any accepted non-zero mode before the
      native call, with the local error of its own message. */
  lemma PosixRejectsNonZeroMode(sys: Sys, p: Picked, fd: Target, offset: Value, length: Value, mode: Value)
    requires p.cls == PosixFallocate64 || p.cls == PosixFallocate
    requires OffsetAccepted(offset) && LengthAccepted(length) && ModeAccepted(mode) && NormalMode(mode) != 0
    ensures Ffallocate(sys, p, fd, offset, length, mode) == Trace([], 0, 0, Threw(Allocation(LocalError(PosixModeMessage))))
  {
    LocalErrorShape(sys.errors, Some(PosixModeMessage));
  }

  /** The composite ignores the mode: once the checks pass, every accepted
      mode gives the same trace, that of the direct `fallocateSync` on the
      descriptor with mode 0. */
  lemma CompositeIgnoresMode(sys: Sys, p: Picked, fd: Target, offset: Value, length: Value, m1: Value, m2: Value)
    requires p.cls == PosixFallocateFallocate
    requires OffsetAccepted(offset) && LengthAccepted(length) && ModeAccepted(m1) && ModeAccepted(m2)
    ensures Ffallocate(sys, p, fd, offset, length, m1) == Ffallocate(sys, p, fd, offset, length, m2)
    ensures Ffallocate(sys, p, fd, offset, length, m1)
            == Facade(sys, FallocateSync(sys.errors.libs), fd, offset, length, Num(Int(0)))
  {
    assert Validate(true, offset, length, m1) == Success(Args(offset.n.i, length.n.i, NormalMode(m1)));
    assert Validate(true, offset, length, m2) == Success(Args(offset.n.i, length.n.i, NormalMode(m2)));
  }

  /** No library of the host exports a POSIX allocation entry point. */
  predicate ExportsNoPosix(libs: Host) {
    forall s :: s in libs.symbols ==> s.name != "posix_fallocate64" && s.name != "posix_fallocate"
  }

  /** No library of the host exports a direct allocation entry point. */
  predicate ExportsNoDirect(libs: Host) {
    forall s :: s in libs.symbols ==> s.name != "fallocate64" && s.name != "fallocate"
  }

  /** Without POSIX symbols, both POSIX chains bind the composite. */
  lemma NoPosixBindsComposite(libs: Host)
    requires ExportsNoPosix(libs)
    ensures PosixFallocateSync(libs).cls == PosixFallocateFallocate
    ensures FposixFallocateSync(libs).cls == PosixFallocateFallocate
  {
    PosixChainShape();
    assert forall j :: 0 <= j < 6 ==> !Constructs(libs, PosixChain[j]) by {
      forall j | 0 <= j < 6 ensures !Constructs(libs, PosixChain[j]) {
        assert NativeSymbol(PosixChain[j].lib, NativeName(PosixChain[j].cls)) !in libs.symbols;
      }
    }
  }

  /** Without direct symbols, both direct chains bind the unimplemented base. */
  lemma NoDirectBindsBase(libs: Host)
    requires ExportsNoDirect(libs)
    ensures FallocateSync(libs).cls == FallocateBase
    ensures FfallocateSync(libs).cls == FallocateBase
  {
    DirectChainShape();
    assert forall j :: 0 <= j < 6 ==> !Constructs(libs, DirectChain[j]) by {
      forall j | 0 <= j < 6 ensures !Constructs(libs, DirectChain[j]) {
        assert NativeSymbol(DirectChain[j].lib, NativeName(DirectChain[j].cls)) !in libs.symbols;
      }
    }
  }

  /** A native direct strategy on an opened target, with accepted arguments:
      its one native call inside one open and one close. */
  lemma DirectOnOpened(sys: Sys, q: Picked, target: Target, offset: Value, length: Value, mode: Value)
    requires IsDirect(q.cls)
    ensures && q.cls != FallocateBase && sys.open(target).Opened?
            && OffsetAccepted(offset) && LengthAccepted(length) && ModeAccepted(mode) ==>
      var d := DirectCall(sys, q, Fd(sys.open(target).fd), Args(offset.n.i, length.n.i, NormalMode(mode)));
      Facade(sys, q, target, offset, length, mode) == d.(opens := 1, closes := 1)
  {
    FacadeOpened(sys, q, target, offset, length, mode);
  }

  /** When the running process exports `fallocate64`, the first candidate of
      the direct chain wins. */
  lemma ProcessFallocate64Binds(libs: Host)
    requires NativeSymbol(None, "fallocate64") in libs.symbols
    ensures FallocateSync(libs).lib == None && FallocateSync(libs).cls == Fallocate64
  {
    DirectChainShape();
    assert Constructs(libs, DirectChain[0]);
  }

  /** On a host whose running process exports `fallocate64` but that has no
      POSIX entry point, `posix_fallocateSync` with mode 1 goes through the
      composite: the mode is dropped and the direct call with mode 0, on the
      descriptor reopened as a path, decides the outcome. */
  lemma CompositeAcceptsModeOne(sys: Sys, path: string)
    requires ExportsNoPosix(sys.errors.libs)
    requires NativeSymbol(None, "fallocate64") in sys.errors.libs.symbols
    ensures sys.open(Path(path)).Opened? && sys.open(Fd(sys.open(Path(path)).fd)).Opened? ==>
      var inner := Fd(sys.open(Fd(sys.open(Path(path)).fd)).fd);
      var call := NativeCall(None, "fallocate64", inner, [0, 0, 1]);
      var t := PosixFallocateSyncCall(sys, path, Num(Int(0)), Num(Int(1)), Num(Int(1)));
      && t.calls == [call] && t.opens == 2 && t.closes == 2
      && (t.outcome == Returned <==> sys.native(call).rv == 0)
  {
    NoPosixBindsComposite(sys.errors.libs);
    ProcessFallocate64Binds(sys.errors.libs);
    CompositeOverDirect(sys, PosixFallocateSync(sys.errors.libs), FallocateSync(sys.errors.libs), path);
  }

  /** The composite bound over a direct `fallocate64` from the running
      process, on an opened path: the call with mode 1 becomes the direct
      call with mode 0 on the descriptor reopened as a path. */
  lemma CompositeOverDirect(sys: Sys, p: Picked, q: Picked, path: string)
    requires p.cls == PosixFallocateFallocate && q == FallocateSync(sys.errors.libs)
    requires q.lib == None && q.cls == Fallocate64
    ensures sys.open(Path(path)).Opened? && sys.open(Fd(sys.open(Path(path)).fd)).Opened? ==>
      var inner := Fd(sys.open(Fd(sys.open(Path(path)).fd)).fd);
      var call := NativeCall(None, "fallocate64", inner, [0, 0, 1]);
      var t := Facade(sys, p, Path(path), Num(Int(0)), Num(Int(1)), Num(Int(1)));
      && t.calls == [call] && t.opens == 2 && t.closes == 2
      && (t.outcome == Returned <==> sys.native(call).rv == 0)
  {
    if sys.open(Path(path)).Opened? && sys.open(Fd(sys.open(Path(path)).fd)).Opened? {
      var fd := Fd(sys.open(Path(path)).fd);
      var f := Facade(sys, q, fd, Num(Int(0)), Num(Int(1)), Num(Int(0)));
      CompositeOpened(sys, p, path, Num(Int(0)), Num(Int(1)), Num(Int(1)));
      DirectOnOpened(sys, q, fd, Num(Int(0)), Num(Int(1)), Num(Int(0)));
      assert f == DirectCall(sys, q, Fd(sys.open(fd).fd), Args(0, 1, 0)).(opens := 1, closes := 1);
    }
  }

  /** On a host that exports no allocation entry point at all,
      `posix_fallocateSync` still binds the composite, which reaches the
      unimplemented direct base: "Not implemented", after opening and closing
      two handles. */
  lemma NoNativeNotImplemented(sys: Sys, path: string, offset: Value, length: Value, mode: Value)
    requires ExportsNoPosix(sys.errors.libs) && ExportsNoDirect(sys.errors.libs)
    requires OffsetAccepted(offset) && LengthAccepted(length) && ModeAccepted(mode)
    ensures sys.open(Path(path)).Opened? && sys.open(Fd(sys.open(Path(path)).fd)).Opened? ==>
      var t := PosixFallocateSyncCall(sys, path, offset, length, mode);
      && t.calls == [] && t.opens == 2 && t.closes == 2
      && t.outcome == Threw(Allocation(LocalError("Not implemented")))
  {
    NoPosixBindsComposite(sys.errors.libs);
    NoDirectBindsBase(sys.errors.libs);
    if sys.open(Path(path)).Opened? && sys.open(Fd(sys.open(Path(path)).fd)).Opened? {
      var p := PosixFallocateSync(sys.errors.libs);
      var fd := Fd(sys.open(Path(path)).fd);
      CompositeIgnoresMode(sys, p, fd, offset, length, mode, mode);
      UnimplementedFacade(sys, fd, offset, length);
    }
  }

  /** The direct `fallocateSync` of a host without a native entry point, on a
      target that opens: one handle opened and closed, then "Not implemented". */
  lemma UnimplementedFacade(sys: Sys, target: Target, offset: Value, length: Value)
    requires FallocateSync(sys.errors.libs).cls == FallocateBase
    requires sys.open(target).Opened?
    ensures Facade(sys, FallocateSync(sys.errors.libs), target, offset, length, Num(Int(0)))
            == Trace([], 1, 1, Threw(Allocation(LocalError("Not implemented"))))
  {
    LocalErrorShape(sys.errors, Some("Not implemented"));
  }
}

=== FILE: js.dfy ===
/** JavaScript values as far as the allocation core inspects them: the
    coercions (ToNumber, ToBoolean, ToInt32), the relational `<` and the
    strict equality `===` that the argument checks are built from, and the
    decimal rendering of a number inside an error message. Section numbers
    refer to ECMAScript 5.1. */
module Js {

  datatype Option<+T> = None | Some(value: T) {
    function GetOr(default: T): T {
      match this
      case Some(v) => v
      case None => default
    }
  }

  datatype Result<+T, +E> = Success(value: T) | Failure(error: E)

  const Int32Min: int := -0x8000_0000
  const Int32Max: int := 0x7fff_ffff
  const TwoTo32: int := 0x1_0000_0000

  predicate InInt32(i: int) {
    Int32Min <= i <= Int32Max
  }

  /** A number value. `Frac(floor)` is any finite non-integer strictly between
      `floor` and `floor + 1`; the checks never need more than that. Negative
      zero is `Int(0)`: `===` does not tell the two zeros apart. */
  datatype Number = Int(i: int) | Frac(floor: int) | NaN | PosInf | NegInf

  /** The values the model lets a caller pass as offset, length, mode or
      callback: every primitive but strings, and function objects, `Func(id)`
      identified by `id`. Strings and other objects are not modelled. */
  datatype Value = Undefined | Null | Bool(b: bool) | Num(n: Number) | Func(id: nat)

  /** ToNumber (section 9.3); a function converts through its source text,
      which is never numeric. */
  function ToNumber(v: Value): (r: Number)
    ensures v.Num? ==> r == v.n
    ensures !v.Num? ==> r == NaN || r == Int(0) || r == Int(1)
    ensures !v.Func? ==> (Truthy(v) <==> r != NaN && r != Int(0))
  {
    match v
    case Undefined => NaN
    case Null => Int(0)
    case Bool(b) => if b then Int(1) else Int(0)
    case Num(n) => n
    case Func(_) => NaN
  }

  /** ToBoolean (section 9.2): the falsy values are undefined, null, false, 0 and NaN. */
  function Truthy(v: Value): (b: bool)
    ensures !b <==> v == Undefined || v == Null || v == Bool(false) || v == Num(Int(0)) || v == Num(NaN)
  {
    match v
    case Undefined => false
    case Null => false
    case Bool(b) => b
    case Num(n) => !(n.NaN? || n == Int(0))
    case Func(_) => true
  }

  /** `v < k` for an integer `k` (sections 11.8.1 and 11.8.5): a comparison with NaN is false. */
  function LessThan(v: Value, k: int): (b: bool)
    ensures ToNumber(v).NaN? || ToNumber(v).PosInf? ==> !b
    ensures ToNumber(v).NegInf? ==> b
    ensures ToNumber(v).Int? ==> (b <==> ToNumber(v).i < k)
    ensures ToNumber(v).Frac? ==> (b <==> ToNumber(v).floor + 1 <= k)
  {
    match ToNumber(v)
    case Int(i) => i < k
    case Frac(f) => f < k
    case NaN => false
    case PosInf => false
    case NegInf => true
  }

  /** The reduction modulo 2^32 into the signed 32-bit range (steps 4-5 of section 9.5). */
  function Wrap32(i: int): (r: int)
    ensures InInt32(r)
    ensures (r - i) % TwoTo32 == 0
  {
    var m := i % TwoTo32;
    if m > Int32Max then m - TwoTo32 else m
  }

  /** ToInt32 (section 9.5): NaN and the infinities become 0, a fraction is
      truncated toward zero before the reduction. */
  function ToInt32(n: Number): (r: int)
    ensures InInt32(r)
  {
    match n
    case Int(i) => Wrap32(i)
    case Frac(f) => Wrap32(if f < 0 then f + 1 else f)
    case _ => 0
  }

  /** `v | 0` (section 11.10). */
  function BitOrZero(v: Value): (r: int)
    ensures InInt32(r)
  {
    ToInt32(ToNumber(v))
  }

  /** `v === k` for a number `k` (section 11.9.6): true only of the same number. */
  predicate StrictEqualsInt(v: Value, k: int) {
    v == Num(Int(k))
  }

  /** The integrality test the argument checks use: `v === (v | 0)`. */
  predicate SurvivesBitOr(v: Value) {
    StrictEqualsInt(v, BitOrZero(v))
  }

  lemma Wrap32Fixes(i: int)
    ensures Wrap32(i) == i <==> InInt32(i)
  {
    var r := Wrap32(i);
    if InInt32(i) {
      var q := (r - i) / TwoTo32;
      assert r - i == q * TwoTo32;
      assert -TwoTo32 < r - i < TwoTo32;
    }
  }

  /** `v === (v | 0)` holds exactly of the numbers that are integers in the
      signed 32-bit range: fractions, NaN, the infinities, integers outside
      the range and every non-number fail it. */
  lemma SurvivesBitOrIff(v: Value)
    ensures SurvivesBitOr(v) <==> v.Num? && v.n.Int? && InInt32(v.n.i)
  {
    if v.Num? && v.n.Int? {
      Wrap32Fixes(v.n.i);
    }
  }

  /** typeof v === "number" */
  predicate IsNumber(v: Value) {
    v.Num?
  }

  function DigitChar(d: nat): (c: char)
    requires d < 10
    ensures '0' <= c <= '9'
  {
    (('0' as int) + d) as char
  }

  function DigitValue(c: char): int {
    c as int - '0' as int
  }

  /** The decimal digits of `n`, most significant first, without leading zeros. */
  function NatToDecimal(n: nat): (s: string)
    ensures |s| >= 1
    ensures forall k :: 0 <= k < |s| ==> '0' <= s[k] <= '9'
    ensures n > 0 ==> s[0] != '0'
    ensures |s| > 1 ==> s[0] != '0'
    decreases n
  {
    if n < 10 then [DigitChar(n)] else NatToDecimal(n / 10) + [DigitChar(n % 10)]
  }

  /** String(i) for an integer number value with |i| < 10^21, where section
      9.8.1 does not switch to exponent form; error numbers are C ints. */
  function IntToDecimal(i: int): (s: string)
    ensures |s| >= 1
  {
    if i < 0 then "-" + NatToDecimal(-i) else NatToDecimal(i)
  }

  /** The value of a string of decimal digits. */
  function DecimalValue(s: string): int
    decreases |s|
  {
    if s == [] then 0 else 10 * DecimalValue(s[..|s| - 1]) + DigitValue(s[|s| - 1])
  }

  /** The value of an optionally signed decimal numeral. */
  function ParseDecimal(s: string): int {
    if |s| > 0 && s[0] == '-' then -DecimalValue(s[1..]) else DecimalValue(s)
  }

  lemma {:induction false} NatToDecimalRoundTrip(n: nat)
    ensures DecimalValue(NatToDecimal(n)) == n
    decreases n
  {
    var s := NatToDecimal(n);
    if n >= 10 {
      NatToDecimalRoundTrip(n / 10);
      assert s[..|s| - 1] == NatToDecimal(n / 10);
      assert s[|s| - 1] == DigitChar(n % 10);
    }
  }

  /** The decimal rendering of an integer reads back as that integer, so the
      number shown in an error message is exactly the error number. */
  lemma IntToDecimalRoundTrip(i: int)
    ensures ParseDecimal(IntToDecimal(i)) == i
  {
    if i < 0 {
      NatToDecimalRoundTrip(-i);
      assert IntToDecimal(i)[1..] == NatToDecimal(-i);
    } else {
      NatToDecimalRoundTrip(i);
    }
  }
}

=== FILE: subprocess.dfy ===
/** The worker process: each request is dispatched by name onto the module's
    exports and answered by exactly one reply that echoes the job and the
    path. Also the JSON encoding the channel applies to the request, and what
    the parent finally delivers for a scheduled job. */
module Subprocess {
  import opened Js
  import opened Util
  import opened Errors
  import opened Fallocate
  import opened Channel

  /** A request field after the JSON encoding of the channel: NaN and the
      infinities become null, a function is dropped (read back as undefined). */
  function Serialize(v: Value): (r: Value)
    ensures !r.Func?
    ensures r.Num? ==> r.n.Int? || r.n.Frac?
    ensures v.Num? && (v.n.Int? || v.n.Frac?) ==> r == v
    ensures v.Num? && !(v.n.Int? || v.n.Frac?) ==> r == Null
    ensures v.Func? ==> r == Undefined
    ensures !v.Num? && !v.Func? ==> r == v
  {
    match v
    case Num(n) => if n.NaN? || n.PosInf? || n.NegInf? then Null else v
    case Func(_) => Undefined
    case _ => v
  }

  /** The request as the worker reads it. */
  function Transmit(req: Request): (r: Request)
    ensures r.job == req.job && r.methodName == req.methodName && r.path == req.path
    ensures !r.offset.Func? && !r.length.Func? && !r.mode.Func?
    ensures Serialize(r.offset) == r.offset && Serialize(r.length) == r.length && Serialize(r.mode) == r.mode
    ensures OffsetAccepted(r.offset) <==> OffsetAccepted(req.offset)
    ensures LengthAccepted(r.length) <==> LengthAccepted(req.length)
  {
    req.(offset := Serialize(req.offset), length := Serialize(req.length), mode := Serialize(req.mode))
  }

  /** The encoding never changes the verdict of the checks, except for a mode
      that is a function or an infinity: those are rejected by a direct call
      but arrive as a falsy mode. */
  lemma SerializeKeepsValidation(fnPresent: bool, offset: Value, length: Value, mode: Value)
    requires !mode.Func? && !(mode.Num? && (mode.n.PosInf? || mode.n.NegInf?))
    ensures Validate(fnPresent, Serialize(offset), Serialize(length), Serialize(mode))
            == Validate(fnPresent, offset, length, mode)
  {
    assert OffsetAccepted(Serialize(offset)) == OffsetAccepted(offset);
    assert LengthAccepted(Serialize(length)) == LengthAccepted(length);
    assert ModeAccepted(Serialize(mode)) == ModeAccepted(mode);
    assert Truthy(Serialize(mode)) == Truthy(mode);
  }

  /** The exception: an infinite mode fails the checks when called directly
      and passes them after the encoding. */
  lemma InfiniteModeAcceptedAfterEncoding()
    ensures Validate(true, Num(Int(0)), Num(Int(1)), Num(PosInf)) == Failure(InvalidMode)
    ensures Validate(true, Num(Int(0)), Num(Int(1)), Serialize(Num(PosInf))) == Success(Args(0, 1, 0))
  {
  }

  const NotAFunction := "fallocate[method] is not a function"
  const ClassWithoutNew := "Class constructor FallocateError cannot be invoked without 'new'"

  /** `fallocate[method](path, offset, length, mode)` on the module's exports.
      The descriptor-taking exports receive the path where a descriptor is
      expected; the asynchronous exports return a promise without throwing. */
  function RunExport(sys: Sys, methodName: string, path: string, offset: Value, length: Value, mode: Value): (t: Trace)
    ensures t.opens == t.closes
    ensures OutcomeWellFormed(t.outcome)
  {
    if methodName == "fallocateSync" then FallocateSyncCall(sys, path, offset, length, mode)
    else if methodName == "posix_fallocateSync" then PosixFallocateSyncCall(sys, path, offset, length, mode)
    else if methodName == "ffallocateSync" then FfallocateSyncCall(sys, Path(path), offset, length, mode)
    else if methodName == "fposix_fallocateSync" then FposixFallocateSyncCall(sys, Path(path), offset, length, mode)
    else if methodName == "fallocate" || methodName == "posix_fallocate" then Trace([], 0, 0, Returned)
    else if methodName == "FallocateError" then Trace([], 0, 0, Threw(Other(ClassWithoutNew, None)))
    else Trace([], 0, 0, Threw(Other(NotAFunction, None)))
  }

  predicate IsExport(methodName: string) {
    methodName in {"fallocateSync", "posix_fallocateSync", "ffallocateSync", "fposix_fallocateSync",
                   "fallocate", "posix_fallocate", "FallocateError"}
  }

  /** `process_message(msg)`: one reply, echoing job and path; a success
      carries nothing else, a failure carries the exception's message and its
      errno, -1 when it has none. */
  function ProcessMessage(sys: Sys, req: Request): (r: Reply)
    ensures r.job == req.job && r.path == req.path
    ensures var t := RunExport(sys, req.methodName, req.path, req.offset, req.length, req.mode);
      && (t.outcome.Returned? <==> r.error.None?)
      && (t.outcome.Returned? ==> r.errno.None?)
      && (t.outcome.Threw? && t.outcome.ex.Allocation? ==>
            r.error == Some(t.outcome.ex.e.message) && r.errno == Some(t.outcome.ex.e.errno))
      && (t.outcome.Threw? && t.outcome.ex.Other? ==>
            r.error == Some(t.outcome.ex.message) && r.errno == Some(t.outcome.ex.errno.GetOr(-1)))
    ensures !IsExport(req.methodName) ==> r == Reply(req.job, req.path, Some(NotAFunction), Some(-1))
  {
    var t := RunExport(sys, req.methodName, req.path, req.offset, req.length, req.mode);
    match t.outcome
    case Returned => Reply(req.job, req.path, None, None)
    case Threw(Allocation(e)) => Reply(req.job, req.path, Some(e.message), Some(e.errno))
    case Threw(Other(message, errno)) => Reply(req.job, req.path, Some(message), Some(errno.GetOr(-1)))
  }

  /** The parent delivers a worker success as `cb(null, path)`: such a reply
      carries neither an error nor an errno, so it is never taken for a failure. */
  lemma SuccessReplyCompletes(sys: Sys, req: Request)
    ensures RunExport(sys, req.methodName, req.path, req.offset, req.length, req.mode).outcome.Returned?
            ==> !Failing(ProcessMessage(sys, req))
  {
    var r := ProcessMessage(sys, req);
    assert r.error.None? ==> r.errno.None?;
  }

  /** A scheduled job, sent, run by the worker and answered: the reply comes
      back to the same callee, the table returns to what it was, and the
      callee receives `(null, path)` exactly when the worker's call returned,
      otherwise a `FallocateError` rebuilt from the worker's errno (-1 for an
      exception without one) and message. */
  lemma ScheduledJobCompletes(st: State, sys: Sys, methodName: string, path: string,
                              offset: Value, length: Value, mode: Value, cb: Value)
    requires Inv(st)
    ensures var s1 := Schedule(st, methodName, path, offset, length, mode, cb, None, Quiet);
      var req := s1.sent.value;
      var t := RunExport(sys, methodName, path, Serialize(offset), Serialize(length), Serialize(req.mode));
      var s2 := OnMessage(s1.state, sys.errors, ProcessMessage(sys, Transmit(req)), Quiet);
      && s2.state.inflight == st.inflight
      && s2.state.jobs == st.jobs + 1
      && (t.outcome.Returned? ==> s2.calls == [Invocation(s1.state.inflight[req.job], Completed(path))])
      && (t.outcome.Threw? && t.outcome.ex.Allocation? ==>
            s2.calls == [Invocation(s1.state.inflight[req.job],
                                    Failed(NewFallocateError(sys.errors, t.outcome.ex.e.errno,
                                                             Some(t.outcome.ex.e.message))))])
      && (t.outcome.Threw? && t.outcome.ex.Other? && t.outcome.ex.message != "" ==>
            s2.calls == [Invocation(s1.state.inflight[req.job],
                                    Failed(NewFallocateError(sys.errors, t.outcome.ex.errno.GetOr(-1),
                                                             Some(t.outcome.ex.message))))])
  {
    var s1 := Schedule(st, methodName, path, offset, length, mode, cb, None, Quiet);
    var req := s1.sent.value;
    assert req.job !in st.inflight;
    assert s1.state.inflight - {req.job} == st.inflight;
    var t := RunExport(sys, methodName, path, Serialize(offset), Serialize(length), Serialize(req.mode));
    var reply := ProcessMessage(sys, Transmit(req));
    if t.outcome.Threw? && t.outcome.ex.Allocation? {
      var e := t.outcome.ex.e;
      assert |e.message| > 0;
      assert Failing(reply);
      assert Throws(Quiet, Invocation(s1.state.inflight[req.job], Completed(path))).None?;
    }
  }

  /** In the worker, `fallocateSync` with an invalid offset throws the local
      error, once the path opens and a native entry point is bound. */
  lemma WorkerInvalidOffset(sys: Sys, path: string, offset: Value, length: Value, mode: Value)
    requires sys.open(Path(path)).Opened?
    requires FallocateSync(sys.errors.libs).cls != FallocateBase
    requires !OffsetAccepted(offset)
    ensures RunExport(sys, "fallocateSync", path, offset, length, mode)
            == Trace([], 1, 1, Threw(Allocation(LocalError("Invalid offset"))))
  {
    var p := FallocateSync(sys.errors.libs);
    assert RunExport(sys, "fallocateSync", path, offset, length, mode) == Facade(sys, p, Path(path), offset, length, mode);
    assert FnPresent(p.cls);
    assert Validate(FnPresent(p.cls), offset, length, mode) == Failure(InvalidOffset);
    LocalErrorShape(sys.errors, Some("Invalid offset"));
  }

  /** The worker's reply to a request with an invalid offset. */
  lemma InvalidOffsetReply(sys: Sys, req: Request)
    requires req.methodName == "fallocateSync"
    requires sys.open(Path(req.path)).Opened?
    requires FallocateSync(sys.errors.libs).cls != FallocateBase
    requires !OffsetAccepted(req.offset)
    ensures Failing(ProcessMessage(sys, Transmit(req)))
    ensures ProcessMessage(sys, Transmit(req))
            == Reply(req.job, req.path, Some("Invalid offset" + LocalSuffix), Some(-1))
  {
    var w := Transmit(req);
    assert !OffsetAccepted(w.offset);
    WorkerInvalidOffset(sys, req.path, w.offset, w.length, w.mode);
  }

  /** The callee a job scheduled with these arguments completes to. */
  function CalleeFor(st: State, mode: Value, cb: Value): Callee {
    if Truthy(Shuffle(mode, cb).1) then Supplied(Shuffle(mode, cb).1) else PromiseOf(st.jobs + 1)
  }

  /** The callback invocations of a job that is scheduled, sent, run by the
      worker, and whose reply is handled by a callee that does not throw. */
  function Delivered(st: State, sys: Sys, methodName: string, path: string,
                     offset: Value, length: Value, mode: Value, cb: Value): seq<Invocation>
    requires Inv(st)
  {
    var s1 := Schedule(st, methodName, path, offset, length, mode, cb, None, Quiet);
    OnMessage(s1.state, sys.errors, ProcessMessage(sys, Transmit(s1.sent.value)), Quiet).calls
  }

  /** An invalid offset scheduled through the worker reaches the callee with
      errno -1 and code EGENERIC; the parent wraps the worker's message again,
      so the " (-1, EGENERIC)" suffix appears twice. */
  lemma ScheduledInvalidOffset(st: State, sys: Sys, path: string, offset: Value, length: Value, cb: Value)
    requires Inv(st)
    requires sys.open(Path(path)).Opened?
    requires FallocateSync(sys.errors.libs).cls != FallocateBase
    requires !OffsetAccepted(offset)
    ensures Delivered(st, sys, "fallocateSync", path, offset, length, Num(Int(0)), cb)
            == [Invocation(CalleeFor(st, Num(Int(0)), cb), Failed(LocalError("Invalid offset" + LocalSuffix)))]
  {
    var s1 := Schedule(st, "fallocateSync", path, offset, length, Num(Int(0)), cb, None, Quiet);
    var req := s1.sent.value;
    var msg := "Invalid offset" + LocalSuffix;
    assert s1.state.inflight[req.job] == CalleeFor(st, Num(Int(0)), cb);
    InvalidOffsetReply(sys, req);
    FailedReplyDelivered(s1.state, sys.errors, Reply(req.job, req.path, Some(msg), Some(-1)));
    LocalErrorShape(sys.errors, Some(msg));
  }

  /** A failing reply for a job in flight, whose callee does not throw, is
      delivered as one `FallocateError` built from the reply's errno and message. */
  lemma FailedReplyDelivered(st: State, host: ErrorHost, reply: Reply)
    requires Inv(st) && reply.job in st.inflight && Failing(reply)
    ensures OnMessage(st, host, reply, Quiet).calls
            == [Invocation(st.inflight[reply.job], Failed(NewFallocateError(host, reply.errno.GetOr(0), reply.error)))]
  {
  }
}

=== FILE: util.dfy ===
/** The candidate-chain selector: try each (library, class) pair in order and
    bind the requested method of the first instance that can be built, plus
    the choice of the native offset width from the host's pointer size. */
module Util {
  import opened Js

  /** Every class a chain can name: the allocation strategies and the error resolvers. */
  datatype Class =
    | Fallocate64 | Fallocate | FallocateBase
    | PosixFallocate64 | PosixFallocate | PosixFallocateFallocate | PosixFallocateBase
    | ErrorResolverUV | ErrorResolverBase

  /** `CLS.name` */
  function ClassName(c: Class): string {
    match c
    case Fallocate64 => "Fallocate64"
    case Fallocate => "Fallocate"
    case FallocateBase => "FallocateBase"
    case PosixFallocate64 => "PosixFallocate64"
    case PosixFallocate => "PosixFallocate"
    case PosixFallocateFallocate => "PosixFallocateFallocate"
    case PosixFallocateBase => "PosixFallocateBase"
    case ErrorResolverUV => "ErrorResolverUV"
    case ErrorResolverBase => "ErrorResolverBase"
  }

  /** A symbol exported by a native library; `lib == None` is the running process itself. */
  datatype NativeSymbol = NativeSymbol(lib: Option<string>, name: string)

  /** What the host's native libraries export. A library that cannot be loaded exports nothing. */
  datatype Host = Host(symbols: set<NativeSymbol>)

  /** One entry of a chain: `[lib, CLS]`. */
  datatype Candidate = Candidate(lib: Option<string>, cls: Class)

  /** The native symbols a class binds in its constructor; binding fails unless all are exported. */
  function RequiredSymbols(c: Class): set<string> {
    match c
    case Fallocate64 => {"fallocate64"}
    case Fallocate => {"fallocate"}
    case PosixFallocate64 => {"posix_fallocate64"}
    case PosixFallocate => {"posix_fallocate"}
    case ErrorResolverUV => {"uv_strerror", "uv_err_name", "uv_translate_sys_error"}
    case _ => {}
  }

  /** `new CLS(lib)` returns without throwing. */
  predicate Constructs(host: Host, cand: Candidate) {
    forall s :: s in RequiredSymbols(cand.cls) ==> NativeSymbol(cand.lib, s) in host.symbols
  }

  /** The methods an instance of the class responds to (own or inherited). */
  function Methods(c: Class): set<string> {
    match c
    case ErrorResolverUV => {"resolve", "_resolve", "_resolve_generic"}
    case ErrorResolverBase => {"resolve", "_resolve_generic"}
    case _ => {"fallocate", "ffallocate", "_fallocate"}
  }

  /** Both the construction and the lookup `inst[symbol].bind(inst)` succeed. */
  predicate Works(host: Host, symbol: string, cand: Candidate) {
    Constructs(host, cand) && symbol in Methods(cand.cls)
  }

  /** The class's constructor cannot throw, whatever the host. */
  predicate AlwaysConstructs(c: Class) {
    RequiredSymbols(c) == {}
  }

  /** The bound method a chain yields: which candidate won, and the name it is published under. */
  datatype Picked = Picked(index: nat, lib: Option<string>, cls: Class, name: string)

  /** `name || CLS.name` */
  function BoundName(name: string, c: Class): string {
    if name != "" then name else ClassName(c)
  }

  /** `pick_one(symbol, name, cands)`: the first candidate that works, or null. */
  function PickOne(host: Host, symbol: string, name: string, cands: seq<Candidate>): (r: Option<Picked>)
    ensures r.Some? ==>
      && r.value.index < |cands|
      && cands[r.value.index] == Candidate(r.value.lib, r.value.cls)
      && Works(host, symbol, cands[r.value.index])
      && (forall j :: 0 <= j < r.value.index ==> !Works(host, symbol, cands[j]))
      && r.value.name == BoundName(name, r.value.cls)
    ensures r.None? <==> forall j :: 0 <= j < |cands| ==> !Works(host, symbol, cands[j])
    ensures (|cands| > 0 && AlwaysConstructs(cands[|cands| - 1].cls)
             && symbol in Methods(cands[|cands| - 1].cls)) ==> r.Some?
    decreases |cands|
  {
    if |cands| == 0 then None
    else if Works(host, symbol, cands[0]) then
      Some(Picked(0, cands[0].lib, cands[0].cls, BoundName(name, cands[0].cls)))
    else
      match PickOne(host, symbol, name, cands[1..])
      case None => None
      case Some(p) => Some(p.(index := p.index + 1))
  }

  /** A chain whose k-th candidate works, with every candidate before it of
      another class that has the method, yields one at or before it: the k-th
      exactly when none before it can be constructed, otherwise one that can. */
  lemma PickOneFallback(host: Host, symbol: string, name: string, cands: seq<Candidate>, k: nat)
    requires k < |cands| && Works(host, symbol, cands[k])
    requires forall j :: 0 <= j < k ==> cands[j].cls != cands[k].cls && symbol in Methods(cands[j].cls)
    ensures var r := PickOne(host, symbol, name, cands);
      && r.Some? && r.value.index <= k
      && (r.value.cls == cands[k].cls <==> forall j :: 0 <= j < k ==> !Constructs(host, cands[j]))
      && (r.value.cls != cands[k].cls ==> Constructs(host, Candidate(r.value.lib, r.value.cls)))
  {
    var r := PickOne(host, symbol, name, cands);
    assert r.Some?;
    if r.value.index < k {
      assert Constructs(host, cands[r.value.index]);
    }
  }

  /** The candidates whose constructors run, in order: every one up to and
      including the first that works. */
  function Attempted(host: Host, symbol: string, cands: seq<Candidate>): seq<Candidate>
    decreases |cands|
  {
    if |cands| == 0 then []
    else if Works(host, symbol, cands[0]) then [cands[0]]
    else [cands[0]] + Attempted(host, symbol, cands[1..])
  }

  /** Candidates after the winner are never constructed; with no winner, all are. */
  lemma {:induction false} AttemptedIsPrefix(host: Host, symbol: string, name: string, cands: seq<Candidate>)
    ensures var r := PickOne(host, symbol, name, cands);
      Attempted(host, symbol, cands) == if r.Some? then cands[..r.value.index + 1] else cands
    decreases |cands|
  {
    if |cands| > 0 && !Works(host, symbol, cands[0]) {
      AttemptedIsPrefix(host, symbol, name, cands[1..]);
      var r := PickOne(host, symbol, name, cands[1..]);
      assert Attempted(host, symbol, cands) == [cands[0]] + Attempted(host, symbol, cands[1..]);
      if r.Some? {
        assert PickOne(host, symbol, name, cands).value.index == r.value.index + 1;
        assert cands[..r.value.index + 2] == [cands[0]] + cands[1..][..r.value.index + 1];
      } else {
        assert PickOne(host, symbol, name, cands).None?;
        assert cands == [cands[0]] + cands[1..];
      }
    }
  }

  /** What follows the winner cannot change the choice. */
  lemma {:induction false} PickOneIgnoresLater(host: Host, symbol: string, name: string,
                                               cands: seq<Candidate>, rest: seq<Candidate>)
    requires PickOne(host, symbol, name, cands).Some?
    ensures var k := PickOne(host, symbol, name, cands).value.index;
      PickOne(host, symbol, name, cands[..k + 1] + rest) == PickOne(host, symbol, name, cands)
    decreases |cands|
  {
    var k := PickOne(host, symbol, name, cands).value.index;
    var c' := cands[..k + 1] + rest;
    assert c'[0] == cands[0];
    if !Works(host, symbol, cands[0]) {
      var tail := PickOne(host, symbol, name, cands[1..]);
      assert tail.Some? && tail.value.index == k - 1;
      PickOneIgnoresLater(host, symbol, name, cands[1..], rest);
      assert c'[1..] == cands[1..][..k] + rest;
      assert PickOne(host, symbol, name, c'[1..]) == tail;
    }
  }

  /** `SMALL` in util.js: pointers of at most this many bytes mean a 32-bit host. */
  const Small: nat := 4

  /** The width in bits of `off_guess_t`, the offset type of the unsuffixed
      native entry points, given the size of a pointer in bytes. */
  function OffGuessBits(pointerSize: nat): (bits: nat)
    ensures bits == 32 || bits == 64
    ensures bits == 64 <==> pointerSize > Small
  {
    if pointerSize > Small then 64 else 32
  }

  /** `i` is representable in a signed integer of `bits` bits (32 or 64). */
  predicate FitsSigned(i: int, bits: nat)
    requires bits == 32 || bits == 64
  {
    if bits == 32 then InInt32(i)
    else -0x8000_0000_0000_0000 <= i <= 0x7fff_ffff_ffff_ffff
  }
}
